=== FILE: README.md ===
# LAN chat relay: a verified model

This project models the protocol logic of a small terminal chat system for a
local network. It has two programs: a relay server (`server.py`) and a chat
client (`client.py`).

The server accepts one connection per user. It registers the user under a
unique name and announces the join to everyone. For each text it receives,
it decides what the text is:

- a private message (`/pm <user> <message>`);
- a request for the user list (`/list`);
- a quit (`/quit`);
- a file header (`FILE_HEADER <sender> <target> <filename> <size> `), after
  which it relays the file's bytes to the target;
- otherwise, a text to broadcast to everyone else.

When the session ends, the server removes the user and announces the
departure.

The client works in two directions:

- **Sending.** It sends what the user types. Some slash commands stay local
  (`/help`, `/clear`, `/time`). `/nick` renames the user locally. `/sendfile`
  sends a header and then the file in 4096-byte chunks.
- **Receiving.** It logs the texts it receives, with an optional timestamp. It
  saves the files it receives.

Everything runs sequentially: one session, or one client loop, at a time.

The modules follow the programs' structure.

- `Strings` holds the Python string operations the programs rely on: `strip`,
  `split` with a limit, `join`, `int` and `str` of a natural number.
- `Streams` models connections:
  - A connection is written as a sequence of frames (one per `sendall`).
  - It is read as a sequence of units: `recv(n)` returns at most `n` bytes of
    the next unit, and an empty read means the peer closed.
  - `Streams` also holds the two chunked copy loops: `Pump` for the relay and
    receive loops, `Chunked` for `f.read(4096)`.
- `Commands` is `parse_command`.
- `Registry` is the `clients` dict, with its insertion order, every
  connection's outbox, and `broadcast`.
- `Router` holds the other server operations and the session, as functions
  from the state and the session's input stream.
- `Server.Relay` is the server as a class whose fields the operations update
  in place. Each method is proved to produce exactly the state described by
  the matching `Registry`/`Router` function.
- `Client` holds the client's operations as functions, with the lemmas about
  them, and `os.path.basename` (`Client.Basename`). `Client.ChatClient` is the client as a class with its two globals,
  its socket's outgoing side, its chat log and its received files.

A send fails exactly when its connection is in a fixed set of dead
connections. A failed send stands for the exception `sendall` raises.

Two results connect the programs:

- A header built by the client for names without spaces is parsed back to
  the same sender, target, filename and size, by the server
  (`Client.HeaderReachesServer`) and by the receiving client
  (`Client.HeaderReachesClient`).
- A file sent as that header followed by the chunks `send_file` cuts it into
  is saved whole by the receiving client when the header is at most 1024
  bytes, so that one `recv(1024)` reads all of it (`Client.FileArrives`).
  Names have no length limit; a longer header is read in parts, and that
  case is not covered.

A filename made of a space-free stem, one space and a non-empty part without
whitespace shifts the header's fields, so the server's `int()` raises and the
sender's session ends (`Client.SpacedFilenameRaises`). A filename whose spaces are all trailing is
accepted, and the server relays a header for the name cut at the first space
(`Client.TrailingSpaceCut`).

The server and the receiving client are also connected: a header line's live
receiver gets the text unstripped, then the relayed chunks
(`Router.HeaderRelaysRaw`), and a client reading those saves the file
when the sender's stream held the whole announced size
(`Client.RelayedFileArrives`). When the sender disconnects early, the server
relays only what arrived, but the receiving client's file loop keeps reading
its own connection, so what follows there (the leave notice of the sender's
teardown, for one) is written into the file up to the announced size
(`Client.ShortRelayMixes`).

## Model

| member | source | states |
|---|---|---|
| Strings.Strip | server.py:14 | `strip()`: removes the leading and trailing characters `str.isspace` accepts, and the result neither starts nor ends with one |
| Strings.Join | server.py:71 | `sep.join(parts)`: the parts in order with the separator between consecutive parts |
| Strings.ParseInt | server.py:31 | `int(text)`: optional surrounding whitespace, an optional sign and at least one decimal digit give the value; anything else is the `ValueError` |
| Strings.Split | server.py:18 | `split(sep, maxsplit)` returns at least one and at most `maxsplit + 1` fields |
| Strings.SplitJoins | server.py:26 | the fields `split` returns, joined with the separator, give back the text |
| Strings.SplitFields | server.py:26 | no field holds the separator, except the last one when the split ran out of cuts |
| Strings.SplitUnique | server.py:26 | any fields that join back to the text and hold no separator where `split` would have cut are exactly what `split` returns |
| Strings.SplitCount | server.py:26 | `split` returns at most one field more than the text has separators |
| Strings.IndexOfFirst | server.py:18 | the cut point of a split is the first occurrence of the separator, and there is none exactly when the separator is absent |
| Strings.StripIdempotent | server.py:14 | stripping a stripped text changes nothing |
| Strings.StripAround | server.py:14 | whitespace around a text whose ends are not whitespace is exactly what `strip` removes |
| Strings.NatToString | client.py:49 | the `{filesize}` field is a non-empty run of decimal digits whose value is the size |
| Strings.ParseIntOfNat | server.py:31 | `int()` of the decimal text of `n`, with trailing whitespace, is `n` |
| Strings.ParseIntPadded | server.py:31 | `int()` of the decimal text of `n` after leading whitespace is `n` |
| Strings.ParseIntInnerSpace | server.py:31 | `int()` raises on a text with a space between its first and last non-blank characters |
| Strings.Decode | server.py:146 | decoding gives one character per byte, with that byte's code |
| Streams.Recv | server.py:146 | a read returns at most `n` bytes, a prefix of what the stream still holds; it is empty exactly when the stream has ended, and then consumes nothing |
| Streams.Pump | server.py:85-91 | `while remaining > 0: chunk = recv(min(4096, remaining)); if not chunk: break; remaining -= len(chunk)`: the chunks read and the stream left after them |
| Streams.PumpReads | server.py:85-91 | each read of the relay loop is non-empty and at most min(4096, remaining), so `remaining` never goes negative; the reads add up to exactly the first min(filesize, available) bytes, in order |
| Streams.ReadsNonEmpty | server.py:87-89 | no read the relay loop keeps is empty, because an empty read ends it |
| Streams.PumpPrefix | server.py:85-91 | the relay loop takes exactly the first min(filesize, available) bytes, and the stream resumes right after them |
| Streams.Chunked | client.py:54-59 | the chunks `f.read(4096)` returns are non-empty and at most 4096 bytes, all but the last are full, and together they are the file |
| Commands.ParseCommand | server.py:13-40 | `parse_command`: strips the text, then tries `/pm `, `FILE_HEADER`, `/quit` and `/list` as prefixes in that order; anything else is a broadcast of the stripped text; `Raises` is the exception of the header branch |
| Commands.ParsePrivate | server.py:18-22 | the text after `/pm ` is split once at the first space: two parts are the target and the message, one part is the usage error |
| Commands.ParseFileHeader | server.py:26-32 | `split(" ", 4)` into five fields and `int()` of the last; fewer fields or a bad number raise, and a result is always a file header |
| Commands.PrefixesExclusive | server.py:17-38 | no text starts with two of the four command prefixes |
| Commands.PrivateMessageSplit | server.py:17-21 | the text parses as a private message to `target` with `message` exactly when the stripped text is `/pm `, the target (no space, possibly empty), one space and the message |
| Commands.PrivateMessageFields | server.py:17-21 | a parsed private message's target and message rebuild the stripped text, and the target has no space |
| Commands.PrivateMessageUsage | server.py:17-22 | the usage error results exactly when the stripped text starts with `/pm ` and has no space after it |
| Commands.PrivateBranch | server.py:17-18 | a stripped text starting with `/pm ` is parsed from what follows the prefix |
| Commands.PrivateNeedsPrefix | server.py:17-22 | only the `/pm ` branch yields a private message or the usage error |
| Commands.PrivateUsage | server.py:18-22 | the text after `/pm ` is the usage error exactly when it holds no space |
| Commands.PmWithoutMessage | server.py:17-22 | `/pm bob` is the usage error |
| Commands.QuitAndList | server.py:34-38 | quit and list are recognised exactly when the stripped text starts with `/quit` or `/list` |
| Commands.QuitterQuits | server.py:34-35 | `/quitter` is a quit |
| Commands.BroadcastVerbatim | server.py:13-40 | a text is broadcast exactly when its stripped form starts with none of the four prefixes, and then the broadcast text is the stripped text |
| Commands.UnknownSlashCommand | server.py:14-40 | an unknown slash command such as `/help` is broadcast as typed, stripped |
| Commands.OnlyHeadersRaise | server.py:25-32 | only a text starting with `FILE_HEADER` can make the classifier raise |
| Commands.HeaderBranch | server.py:25-26 | a stripped text starting with `FILE_HEADER` is parsed as a header |
| Commands.HeaderSplit | server.py:26 | a header line splits into the tag, sender, target, filename and everything after the fourth space |
| Commands.HeaderFields | server.py:25-32 | a header line with space-free names parses to those names and `int()` of the size field, and raises when `int()` raises |
| Commands.ShortHeaderRaises | server.py:25-26 | a header line with fewer than four spaces raises |
| Registry.Send | server.py:59-62 | `conn.sendall`: a dead connection raises and changes nothing; a live one gets the frame appended |
| Registry.Formatted | server.py:53 | `f"[{sender}] {msg}" if sender else msg`: the prefix only for a sender that is present and non-empty |
| Registry.Register | server.py:139 | `clients[username] = conn` for a new name: the entry is added and the name goes last in the insertion order |
| Registry.RemoveAll | server.py:64-66 | `del clients[user]` for each collected user: the entries go from the map and from the order |
| Registry.Unregister | server.py:159-161 | `if username in clients: del clients[username]` |
| Registry.Broadcast | server.py:52-66 | `broadcast`: the delivery loop over the insertion order, then the removal of every user whose send failed |
| Registry.Without | server.py:64-66 | a name is kept exactly when it was listed and is not in the removed batch |
| Registry.Deliver | server.py:57-62 | the delivery loop changes no registry entry, no dead connection and no connection count |
| Registry.DeliverOutbox | server.py:57-60 | the delivery loop appends exactly one copy of the text to each reached connection and nothing to any other |
| Registry.DeliverFailed | server.py:57-62 | the users collected as failed are exactly the listed users, other than the sender, whose connection is dead |
| Registry.WithoutDropped | server.py:64-66 | removing the collected users from the order leaves exactly the survivors, in order |
| Registry.RemoveAllValid | server.py:64-66 | deleting users keeps each name listed once and on its own connection |
| Registry.RegisterValid | server.py:139 | registering a new name on a free connection keeps the registry valid |
| Registry.BroadcastReaches | server.py:52-66 | every registered user other than the sender whose connection accepts it gets exactly one copy of `[sender] msg` (or the bare `msg` when there is no sender or it is empty), and no one else gets anything |
| Registry.BroadcastSkipsSender | server.py:57-58 | the sender gets nothing from its own broadcast |
| Registry.BroadcastRemoves | server.py:52-66 | afterwards exactly the users other than the sender whose send failed are gone; every other entry keeps its connection and its place in the order |
| Router.SendPrivate | server.py:43-49 | `send_private`: an unknown target gets the sender the not-found error; otherwise the target is sent `[PM from sender] msg` and then the sender `[PM to target] msg`; `None` is the exception of a dead target |
| Router.ListUsers | server.py:69-72 | `list_users`: `[USERS ONLINE] ` and the registered names joined by `, ` in insertion order, to the requester |
| Router.ForwardFile | server.py:75-93 | `forward_file`: an unknown target gets the sender the error and nothing is read; otherwise the raw header goes to the receiver, then each chunk the relay loop reads, then the confirmation to the sender; `None` is the exception of a dead receiver |
| Router.RouteMessage | server.py:96-124 | `route_message`: classify the text, then act on the command |
| Router.Dispatch | server.py:99-124 | the branches of `route_message`, the file header forwarded with the raw text under the session's own name, and the usage error sent back as `[ERROR] ...` |
| Router.Serve | server.py:145-155 | the receive loop of `handle_client`: an empty read stops it, `/quit` sends the goodbye and stops it, an exception stops it, anything else is routed |
| Router.HandleClient | server.py:127-164 | `handle_client`: prompt, read and strip the name, reject a taken name, otherwise admit, serve and tear down |
| Router.Admit | server.py:134-143 | register the accepted name, broadcast the join, send the welcome |
| Router.Attend | server.py:139-164 | admit, run the receive loop, tear down |
| Router.Leave | server.py:159-163 | the teardown: delete the user if registered, then broadcast the leave notice with no sender |
| Router.SendPrivateEffect | server.py:43-49 | an unknown target gets only the sender the not-found error; a dead target raises; otherwise the target gets `[PM from sender] msg`, the sender gets `[PM to target] msg`, no one else gets anything, and the registry is unchanged |
| Router.ListUsersEffect | server.py:69-72 | only the requester gets `[USERS ONLINE] ` and every registered name joined by `, `, in registration order; the registry is unchanged |
| Router.ForwardFileRefused | server.py:75-79 | an unknown target gets only the sender the error, and no payload byte is read; a dead receiver raises before any read |
| Router.ForwardFileRelays | server.py:75-93 | a live receiver gets the raw header and then one data frame per chunk the relay loop reads; the sender gets the confirmation; the stream resumes where the loop stopped |
| Router.HeaderRelaysRaw | server.py:114-122 | a file header's live receiver gets the header text exactly as it came in, unstripped, followed by one data frame per chunk the relay loop read; the session continues and the stream resumes after the relayed bytes |
| Router.RouteKeeps | server.py:96-124 | whatever the command, an exception changes nothing and reads nothing; otherwise the session's user stays registered on its connection, no user is added, and the stream is never rewound |
| Router.PrivateKeeps | server.py:99-100 | a private message keeps the session as `RouteKeeps` states |
| Router.HeaderKeeps | server.py:114-122 | a file header keeps the session as `RouteKeeps` states |
| Router.ForwardKeeps | server.py:75-93 | `forward_file` never changes the registry, and reads nothing when it raises |
| Router.BroadcastKeeps | server.py:102-103 | a broadcast from the session's user keeps that user registered on its connection |
| Router.ServeEnds | server.py:145-155 | the receive loop only drops users; it stops on an empty read only when the stream has ended, and after `/quit` the goodbye is the last frame the user's connection got |
| Router.ServeKeeps | server.py:145-155 | the receive loop keeps the session's user registered on the same connection and adds no one |
| Router.ServeStops | server.py:145-155 | why the loop stopped shows in what it leaves: an ended stream, or the goodbye as the newest frame |
| Router.Admitted | server.py:134-143 | an accepted name is registered on its connection, and every other user still registered was already registered on the same connection |
| Router.Admission | server.py:129-138 | a connection that cannot be greeted ends at once; a taken name gets the prompt and the rejection, and the registry and every other connection are untouched |
| Router.JoinNotice | server.py:141 | the join notice reaches every registered user whose connection accepts it, the new user included, exactly once |
| Router.AdmitNotices | server.py:138-143 | on admission the new user's connection gets the join notice and then the welcome, and every live user already registered gets the join notice once |
| Router.LeaveNotice | server.py:159-163 | the teardown removes the user if present, adds no one, and appends the leave notice once to every user still registered |
| Router.LeaveReaches | server.py:163 | the leave notice is appended once to every user still registered |
| Router.LeaveLast | server.py:159-163 | after the teardown the leave notice is the newest frame of every remaining user |
| Router.LeaveSilent | server.py:159-163 | the leaving user's connection gets nothing from the teardown |
| Router.SessionEnd | server.py:127-164 | a session that ran ends with its user unregistered, no user added, the leave notice last for everyone left, the goodbye last for the user after `/quit`, and an ended stream after a disconnect |
| Router.AttendEnds | server.py:139-163 | the same, for the part of `handle_client` after the name is accepted |
| Server.Relay.constructor | server.py:9 | the registry starts empty and valid |
| Server.Relay.Write | server.py:46 | `sendall` on a live connection appends the frame to that connection's outbox only |
| Server.Relay.TrySend | server.py:59-62 | `sendall` appends the frame to a live connection and reports failure on a dead one |
| Server.Relay.Register | server.py:139 | `clients[username] = conn` adds the name at the end of the order |
| Server.Relay.Remove | server.py:159-161 | `del clients[username]` when present |
| Server.Relay.Broadcast | server.py:52-66 | the two loops of `broadcast`, updating the registry in place, leave exactly the state `Registry.Broadcast` describes |
| Server.Relay.DeliverAll | server.py:57-62 | the delivery loop leaves the outboxes and the failed list that `Registry.Deliver` describes |
| Server.Relay.RemoveEach | server.py:64-66 | the cleanup loop deletes every collected user |
| Server.Relay.SendPrivate | server.py:43-49 | in place, the state `Router.SendPrivate` describes, or nothing changed when the target's send raises |
| Server.Relay.ListUsers | server.py:69-72 | in place, the state `Router.ListUsers` describes |
| Server.Relay.ForwardFile | server.py:75-93 | in place, the state and remaining stream that `Router.ForwardFile` describes |
| Server.Relay.RelayPayload | server.py:85-91 | the relay loop appends one data frame per chunk `Pump` reads and leaves the stream where `Pump` stops |
| Server.Relay.RouteMessage | server.py:96-124 | in place, the state, stream and outcome that `Router.RouteMessage` describes |
| Server.Relay.Dispatch | server.py:99-124 | each branch of `route_message` leaves what `Router.Dispatch` describes |
| Server.Relay.Serve | server.py:145-155 | the receive loop leaves the state, stream and stop reason that `Router.Serve` describes |
| Server.Relay.HandleClient | server.py:127-164 | the whole session leaves what `Router.HandleClient` describes |
| Server.Relay.Admit | server.py:134-143 | registration, join notice and welcome, as `Router.Admit` describes |
| Server.Relay.Attend | server.py:139-164 | admission, receive loop and teardown, as `Router.Attend` describes |
| Server.RelayStep | server.py:86-91 | one read of the relay loop, appended, leaves the same end in view |
| Server.DeliverTurn | server.py:57-62 | one turn of the delivery loop leaves the same end in view |
| Client.FormatMessage | client.py:31-34 | `format_message`: `[now] ` before the message when timestamps are on, the bare message otherwise |
| Client.HeaderText | client.py:49 | the header f-string: tag, sender, target, filename and size separated by single spaces, with a trailing space |
| Client.ParseHeader | client.py:76-77 | `split(" ", 4)` into five fields and `int()` of the last, on the unstripped text; `None` is the `ValueError` either raises |
| Client.FileFrames | client.py:41-59 | `send_file`: nothing for a path that is not a file; otherwise the header with the basename and the size, then one data frame per `f.read(4096)` chunk |
| Client.Handled | client.py:109-161 | `handle_command`: `/help` and `/clear` do nothing here, `/time` flips the flag, `/nick ` renames and sends the command, `/sendfile ` sends a file or nothing on a usage error, `/list` and `/pm ` are sent, `/quit` is sent and ends the client, anything else does nothing |
| Client.Typed | client.py:168-176 | one typed line: the empty line is skipped, a `/` line goes to `handle_command`, anything else is sent as typed |
| Client.TypedAll | client.py:164-176 | `send_messages`: the typed lines in order until one quits |
| Client.FormatShowsMessage | client.py:31-34 | the message is always shown whole at the end, and the `[time] ` prefix is there exactly when timestamps are on |
| Client.Basename | client.py:46 | `os.path.basename`: the characters after the last `/`, taken from the end of the path |
| Client.BasenameSuffix | client.py:46 | the basename is a suffix of the path without a `/`, preceded by a `/` whenever it is shorter than the path, so it is the longest such suffix |
| Client.HeaderTagged | client.py:49 | the header starts with `FILE_HEADER` |
| Client.HeaderStripped | client.py:49 | stripping the header removes exactly its trailing space |
| Client.HeaderReachesServer | client.py:49 | the server parses a header built for space-free names back to exactly that sender, target, filename and size |
| Client.SpacedFilenameRaises | client.py:46-49 | a filename made of a space-free stem, one space and a non-empty part without whitespace makes the server's classifier raise on the header |
| Client.TrailingSpaceCut | client.py:46-49 | a filename whose spaces are all trailing is accepted by the server, which relays a header for the name cut at the first space |
| Client.HeaderReachesClient | client.py:76-77 | the receiving client parses a header built for space-free names back to exactly that sender, target, filename and size |
| Client.PayloadOfChunks | client.py:54-59 | the data frames of the chunks carry exactly the chunks' bytes, in order |
| Client.FileFramesPayload | client.py:41-59 | a path that is not a file sends nothing; otherwise the header goes first, then non-empty frames of at most 4096 bytes whose bytes are the file |
| Client.FileFramesNotEmpty | client.py:41-59 | `send_file` never sends an empty text |
| Client.NickSplit | client.py:132 | `cmd.split(" ", 1)` on `/nick ...` gives the command word and everything after the first space |
| Client.TimeToggles | client.py:127-128 | `/time` flips the timestamp flag and sends nothing, so doing it twice restores the state |
| Client.NickRenames | client.py:131-134 | `/nick NAME` sets the user name to everything after the first space and sends the whole command unchanged |
| Client.SendfileSplit | client.py:138 | `/sendfile <user> <path>` splits into the target and a path that may hold spaces |
| Client.SendfileArgs | client.py:136-139 | `/sendfile <user> <path>` sends exactly what `send_file` sends for that target and path |
| Client.SendfileUsage | client.py:136-141 | `/sendfile` followed by text without a space (fewer than two arguments) sends nothing and changes nothing |
| Client.CommandSent | client.py:109-161 | a command other than `/sendfile` is sent as typed exactly when it is `/list`, `/quit`, `/pm ...` or `/nick ...`, and only `/quit` ends the client |
| Client.WhatIsSent | client.py:164-176 | the empty line sends nothing, other text is sent as typed, and a line other than `/sendfile ...` is sent exactly when it is forwarded |
| Client.InputNotEmpty | client.py:168-176 | one typed line only appends to what was sent, and never an empty text |
| Client.NeverSendsEmpty | client.py:164-176 | the input loop only appends to what was sent, and never sends an empty text |
| Client.Receive | client.py:64-106 | `receive_messages`: turns until one stops on an empty read or a malformed header |
| Client.ReceiveTurn | client.py:64-99 | every turn that does not stop consumes input |
| Client.ReceiveSavesPrefix | client.py:75-93 | after a header the saved file is exactly the first min(size, available) bytes that followed it, the log is untouched, and reading resumes right after them |
| Client.ReceiveLogsText | client.py:96-99 | a text that is not a header is logged once, formatted, and nothing is saved |
| Client.TurnEnds | client.py:64-106 | one turn only appends to the log, and stops as closed only on an ended stream |
| Client.ReceiveEnds | client.py:64-106 | the receive loop only appends to the log, and stops as closed only when the stream has ended |
| Client.FileArrives | client.py:75-89 | when the header is at most 1024 bytes, so that one `recv(1024)` reads it whole, a header for `data` followed by the chunks `send_file` cuts `data` into saves exactly `data` under the filename |
| Client.RelayedFileArrives | client.py:75-89 | the receiving client, fed the header unit and then the chunks the server's relay loop read, saves exactly the announced number of bytes from the sender's stream under the announced filename and logs nothing, when the sender's stream held them all |
| Client.ShortRelayMixes | client.py:75-89 | when the sender's stream ends before the announced size, the receiving client saves the relayed bytes followed by the bytes that come next on its own connection, up to the announced size, and logs nothing |
| Client.RelayedUnits | client.py:66 | after a relayed header of at most 1024 bytes, the client's next read is exactly that header, and the bytes that follow are the relayed chunks' bytes and then the rest |
| Client.SaveTurn | client.py:84-89 | one read of the file loop either ends it or is written and leaves the same end in view |
| Client.ReceiveFile | client.py:82-89 | the file loop writes exactly the first min(size, available) bytes, in order, and the stream resumes right after them |
| Client.SendTurn | client.py:55-59 | one chunk sent leaves the rest of the file still owed |
| Client.SendChunk | client.py:56 | the chunk read at an offset is the first of the chunks of the rest of the file |
| Client.ChatClient.constructor | client.py:16-17 | a client starts with timestamps on, its chosen name, nothing sent, logged or saved |
| Client.ChatClient.SendFile | client.py:41-59 | in place, appends to what was sent exactly the frames `FileFrames` describes and changes nothing else |
| Client.ChatClient.SendChunks | client.py:54-59 | the chunk loop appends one data frame per chunk of the file |
| Client.ChatClient.HandleCommand | client.py:109-161 | in place, the globals, the frames sent and the quit decision that `Handled` describes |
| Client.ChatClient.SendMessages | client.py:164-176 | the input loop leaves what `TypedAll` describes |
| Client.ChatClient.ReceiveMessages | client.py:64-106 | the receive loop leaves the log, the saved files, the stream and the stop reason that `Receive` describes |
| Client.ChatClient.ReceiveOne | client.py:66-99 | one turn of the receive loop does what `ReceiveTurn` describes |

## Left out

- Client.FileArrives: holds only for a header of at most 1024 bytes. A longer header, possible because names have no length limit, is split across reads of `recv(1024)`, and no result is proved for that case.
- Sockets, threads and `clients_lock` are not modelled. `start_server` and `start_client` are left out. One session, or one client loop, runs at a time, so the unlocked read of `clients[sender]` at the end of `forward_file` is not a race here.
- Which sends fail is fixed in advance: the connections in the dead set. A connection therefore cannot fail partway through a session. Once the greeting reaches a user, every later send to that user succeeds.
- The server's outboxes are kept per connection, not per user. A rejected duplicate connection thus has its own outbox.
- TCP framing is not modelled. Each unit of a stream is what one send delivered, and `recv(1024)` reads at most 1024 bytes of one unit.
- Text is decoded one character per byte. UTF-8 encoding and decoding errors are not modelled.
- Python's `int()` is modelled for decimal text with optional surrounding whitespace and an optional sign. Underscores and non-ASCII digits are left out.
- `conn.close()` and client socket shutdown are not modelled.
- The `NameError` raised when the first `recv` of `handle_client` fails before `username` is bound is not modelled.
- Exceptions from `recv` are not modelled.
- The client's sends never fail. Exceptions from its `sendall`, and the `/quit` it sends on `KeyboardInterrupt`, are not modelled. The end of `input()` is the end of the list of typed lines.
- Printing, colours, the prompt, the `/help` text, `/clear`'s screen clearing, `sys.exit` and `KeyboardInterrupt` handling are not modelled.
- The clock is a parameter (`now`), fixed for one run of the receive loop. The timestamp flag is also fixed for that run.
- Client.Basename: paths are POSIX paths, cut after the last `/`. The Windows form of `os.path.basename`, which also cuts at `\` and after a drive such as `C:`, is not modelled.
- The file system is a map from paths that are regular files to their contents. `os.path.isfile` is membership in that map, and `f.read` reads the mapped bytes.
- Saved files are kept in a map from filename to contents, so a later file with the same name overwrites the earlier one. Errors when opening the save path (for example an empty or nested filename) are not modelled.
- Client.ChatClient.ReceiveMessages: the input stream is a parameter, not a socket shared with the sending thread.
- Server.Relay.HandleClient: the connection's input is a parameter, as a stream of units.

=== FILE: client.dfy ===
/**
 * The chat client: what it sends for each line typed (`send_messages` and
 * `handle_command`), the header and payload `send_file` writes, and what its
 * receive loop (`receive_messages`) logs and saves. The clock, the terminal
 * and the file system are parameters: `now` is the reading of `timestamp()`,
 * and `disk` maps each path that is a regular file to its contents.
 */
module Client {
  import opened Wrappers
  import opened Strings
  import opened Streams
  import Commands

  /** `format_message(msg)`, with the clock's `HH:MM:SS` reading passed in as `now`. */
  function FormatMessage(show: bool, now: string, msg: string): string
  {
    if show then "[" + now + "] " + msg else msg
  }

  /**
   * The message is always shown in full, at the end; the `[time] ` prefix is
   * there exactly when timestamps are on.
   */
  lemma FormatShowsMessage(show: bool, now: string, msg: string)
    ensures var r := FormatMessage(show, now, msg);
            && |msg| <= |r| && r[|r| - |msg|..] == msg
            && (show <==> |r| > |msg|)
            && (show ==> r[..|r| - |msg|] == "[" + now + "] ")
  {
    if show {
      var p := "[" + now + "] ";
      assert FormatMessage(show, now, msg) == p + msg;
      assert (p + msg)[|p|..] == msg && (p + msg)[..|p|] == p;
    }
  }

  /** `os.path.basename(path)`: the part of the path after its last `/` (see `BasenameSuffix`). */
  function Basename(path: string): string
  {
    if path == [] || path[|path| - 1] == '/' then []
    else Basename(path[..|path| - 1]) + [path[|path| - 1]]
  }

  /** The basename is the longest suffix of the path without a `/`. */
  lemma {:induction false} BasenameSuffix(path: string)
    ensures var r := Basename(path);
            && |r| <= |path| && r == path[|path| - |r|..]
            && (forall k :: 0 <= k < |r| ==> r[k] != '/')
            && (|r| < |path| ==> path[|path| - |r| - 1] == '/')
  {
    if path != [] && path[|path| - 1] != '/' {
      var init := path[..|path| - 1];
      var b := Basename(init);
      BasenameSuffix(init);
      var r := b + [path[|path| - 1]];
      assert path == init + [path[|path| - 1]];
      assert path[|path| - |r|..] == init[|init| - |b|..] + [path[|path| - 1]];
      assert forall k :: 0 <= k < |b| ==> r[k] == b[k];
      if |r| < |path| {
        assert path[|path| - |r| - 1] == init[|init| - |b| - 1];
      }
    }
  }

  /** The header `send_file` sends before the payload, trailing space included. */
  function HeaderText(sender: string, target: string, filename: string, size: nat): string
  {
    Commands.HeaderTag + " " + sender + " " + target + " " + filename + " " + NatToString(size) + " "
  }

  /** The fields of a received file header. */
  datatype Header = Header(sender: string, target: string, filename: string, size: int)

  /**
   * `_, sender, target, filename, filesize = message.split(" ", 4)` and
   * `int(filesize)` in the receive loop; `None` is the ValueError either raises.
   */
  function ParseHeader(message: string): Option<Header>
  {
    var fields := Split(message, ' ', 4);
    if |fields| < 5 then None
    else match ParseInt(fields[4])
      case None => None
      case Some(size) => Some(Header(fields[1], fields[2], fields[3], size))
  }

  /** A header line starts with the tag. */
  lemma HeaderTagged(sender: string, target: string, filename: string, size: nat)
    ensures Commands.HeaderTag <= HeaderText(sender, target, filename, size)
  {
    var digits := NatToString(size);
    Commands.LeadingField(Commands.HeaderTag, sender, target, filename, digits);
    var m := Commands.HeaderTag + " " + sender + " " + target + " " + filename + " " + digits;
    assert HeaderText(sender, target, filename, size) == m + " ";
    assert (m + " ")[..|Commands.HeaderTag|] == m[..|Commands.HeaderTag|];
  }

  /**
   * The server's classifier reads back exactly the sender, target, filename
   * and size of a header the client built, when the three names hold no space.
   */
  lemma HeaderReachesServer(sender: string, target: string, filename: string, size: nat)
    requires ' ' !in sender && ' ' !in target && ' ' !in filename
    ensures Commands.ParseCommand(HeaderText(sender, target, filename, size))
         == Commands.Parsed(Commands.FileHeader(sender, target, filename, size))
  {
    var digits := NatToString(size);
    HeaderStripped(sender, target, filename, size);
    Commands.HeaderFields(HeaderText(sender, target, filename, size), sender, target, filename, digits);
    assert digits + "" == digits;
    ParseIntOfNat(size, "");
  }

  /** Stripping a header removes exactly its trailing space. */
  lemma HeaderStripped(sender: string, target: string, filename: string, size: nat)
    ensures Strip(HeaderText(sender, target, filename, size))
         == Commands.HeaderTag + " " + sender + " " + target + " " + filename + " " + NatToString(size)
  {
    var digits := NatToString(size);
    var m := Commands.HeaderTag + " " + sender + " " + target + " " + filename + " " + digits;
    assert m[0] == 'F' by {
      Commands.LeadingField(Commands.HeaderTag, sender, target, filename, digits);
    }
    assert !IsSpace(m[|m| - 1]) by {
      assert m[|m| - 1] == digits[|digits| - 1];
      assert IsDigit(digits[|digits| - 1]);
    }
    StripTrailing(m, " ");
  }

  /**
   * A filename made of a space-free stem, one space and a non-empty part
   * without whitespace shifts the header's fields: the size field then starts
   * with that part, `int()` raises on it, and the server's classifier raises,
   * which ends the sender's session. Trailing spaces alone do not raise
   * (`TrailingSpaceCut`).
   */
  lemma SpacedFilenameRaises(sender: string, target: string, name: string, ext: string, size: nat)
    requires ' ' !in sender && ' ' !in target && ' ' !in name
    requires ext != [] && forall k :: 0 <= k < |ext| ==> !IsSpace(ext[k])
    ensures Commands.ParseCommand(HeaderText(sender, target, name + " " + ext, size)) == Commands.Raises
  {
    var digits := NatToString(size);
    var front := Commands.HeaderTag + " " + sender + " " + target + " ";
    var field := ext + " " + digits;
    HeaderStripped(sender, target, name + " " + ext, size);
    Regroup(front, name, ext, digits);
    Commands.HeaderFields(HeaderText(sender, target, name + " " + ext, size), sender, target, name, field);
    assert !IsSpace(field[|field| - 1]) by {
      assert field[|field| - 1] == digits[|digits| - 1];
      assert IsDigit(digits[|digits| - 1]);
    }
    StripKeeps(field);
    assert field[|ext|] == ' ';
    ParseIntInnerSpace(field, |ext|);
  }

  /**
   * A filename whose spaces are all trailing is accepted: the size field then
   * starts with the extra spaces, which `int()` ignores, and the server relays
   * a header for the name cut at the first space.
   */
  lemma TrailingSpaceCut(sender: string, target: string, name: string, pad: string, size: nat)
    requires ' ' !in sender && ' ' !in target && ' ' !in name
    requires pad != [] && forall k :: 0 <= k < |pad| ==> pad[k] == ' '
    ensures Commands.ParseCommand(HeaderText(sender, target, name + pad, size))
         == Commands.Parsed(Commands.FileHeader(sender, target, name, size))
  {
    var digits := NatToString(size);
    var more := pad[1..];
    var front := Commands.HeaderTag + " " + sender + " " + target + " ";
    assert Strip(HeaderText(sender, target, name + pad, size)) == front + name + " " + (more + " " + digits) by {
      assert name + pad == name + " " + more;
      HeaderStripped(sender, target, name + pad, size);
      Regroup(front, name, more, digits);
    }
    Commands.HeaderFields(HeaderText(sender, target, name + pad, size), sender, target, name, more + " " + digits);
    PaddedSize(more, size);
  }

  /** The size field after a run of extra spaces still reads as the size. */
  lemma PaddedSize(more: string, size: nat)
    requires forall k :: 0 <= k < |more| ==> more[k] == ' '
    ensures ParseInt(more + " " + NatToString(size)) == Some(size)
  {
    assert forall k :: 0 <= k < |more + " "| ==> IsSpace((more + " ")[k]);
    ParseIntPadded(size, more + " ");
  }

  lemma Regroup(front: string, a: string, b: string, d: string)
    ensures front + (a + " " + b) + " " + d == front + a + " " + (b + " " + d)
  {
  }

  /**
   * The receiving client reads back exactly the sender, target, filename and
   * size of a header the sending client built and the server forwarded
   * unchanged; the size field keeps the trailing space, which `int()` ignores.
   */
  lemma HeaderReachesClient(sender: string, target: string, filename: string, size: nat)
    requires ' ' !in sender && ' ' !in target && ' ' !in filename
    ensures ParseHeader(HeaderText(sender, target, filename, size)) == Some(Header(sender, target, filename, size))
  {
    var digits := NatToString(size);
    var front := Commands.HeaderTag + " " + sender + " " + target + " " + filename + " ";
    AppendAssoc(front, digits, " ");
    Commands.HeaderSplit(HeaderText(sender, target, filename, size), sender, target, filename, digits + " ");
    ParseIntOfNat(size, " ");
  }

  /** The bytes of the data frames, in order. */
  function Payload(frames: seq<Frame>): seq<byte>
  {
    if frames == [] then []
    else (if frames[0].Data? then frames[0].bytes else []) + Payload(frames[1..])
  }

  lemma {:induction false} PayloadOfChunks(chunks: seq<seq<byte>>)
    ensures Payload(DataFrames(chunks)) == Concat(chunks)
  {
    if chunks != [] {
      DataFramesCons(chunks[0], chunks[1..]);
      assert chunks == [chunks[0]] + chunks[1..];
      assert DataFrames(chunks)[1..] == DataFrames(chunks[1..]);
      PayloadOfChunks(chunks[1..]);
    }
  }

  /**
   * `send_file(sock, sender, target, filepath)`: nothing for a path that is
   * not a file; otherwise the header, then the file as `f.read(4096)` cuts it.
   */
  function FileFrames(sender: string, target: string, path: string, disk: map<string, seq<byte>>): seq<Frame>
  {
    if path !in disk then []
    else
      var data := disk[path];
      [Text(HeaderText(sender, target, Basename(path), |data|))] + DataFrames(Chunked(data))
  }

  /** What `send_file` sends for a path that is a file, after what was sent before. */
  lemma FileFramesFound(start: seq<Frame>, sender: string, target: string, path: string, disk: map<string, seq<byte>>)
    requires path in disk
    ensures start + [Text(HeaderText(sender, target, Basename(path), |disk[path]|))] + DataFrames(Chunked(disk[path]))
         == start + FileFrames(sender, target, path, disk)
  {
    AppendAssoc(start, [Text(HeaderText(sender, target, Basename(path), |disk[path]|))], DataFrames(Chunked(disk[path])));
  }

  /**
   * A file goes out as its header first, then non-empty chunks of at most
   * 4096 bytes that add up to its contents; a path that is not a file sends nothing.
   */
  lemma FileFramesPayload(sender: string, target: string, path: string, disk: map<string, seq<byte>>)
    ensures var fs := FileFrames(sender, target, path, disk);
            && (path !in disk ==> fs == [])
            && (path in disk ==>
                  && fs != [] && fs[0] == Text(HeaderText(sender, target, Basename(path), |disk[path]|))
                  && (forall k :: 1 <= k < |fs| ==> fs[k].Data? && 0 < |fs[k].bytes| <= ChunkSize)
                  && Payload(fs[1..]) == disk[path])
  {
    if path in disk {
      var data := disk[path];
      var fs := FileFrames(sender, target, path, disk);
      assert fs[1..] == DataFrames(Chunked(data));
      PayloadOfChunks(Chunked(data));
    }
  }

  /** The two globals `handle_command` updates, and everything written to the socket so far. */
  datatype Outbound = Outbound(showTimestamps: bool, username: string, sent: seq<Frame>)

  /** `cmd.split(" ", 1)` on a `/nick ` command: the command word and everything after its space. */
  lemma NickSplit(cmd: string)
    requires "/nick " <= cmd
    ensures Split(cmd, ' ', 1) == ["/nick", cmd[6..]]
  {
    assert cmd == "/nick" + [' '] + cmd[6..];
    SplitCut("/nick", ' ', cmd[6..], 1);
    SplitNoCut(cmd[6..], ' ', 0);
  }

  /**
   * `handle_command(cmd, sock)`; the flag is true when the command ends the
   * client (`/quit` exits after sending).
   */
  function Handled(o: Outbound, cmd: string, disk: map<string, seq<byte>>): (r: (Outbound, bool))
  {
    if cmd == "/help" || cmd == "/clear" then (o, false)
    else if cmd == "/time" then (o.(showTimestamps := !o.showTimestamps), false)
    else if "/nick " <= cmd then
      NickSplit(cmd);
      (o.(username := Split(cmd, ' ', 1)[1], sent := o.sent + [Text(cmd)]), false)
    else if "/sendfile " <= cmd then
      var parts := Split(cmd, ' ', 2);
      if |parts| != 3 then (o, false)
      else (o.(sent := o.sent + FileFrames(o.username, parts[1], parts[2], disk)), false)
    else if cmd == "/list" || "/pm " <= cmd then (o.(sent := o.sent + [Text(cmd)]), false)
    else if cmd == "/quit" then (o.(sent := o.sent + [Text(cmd)]), true)
    else (o, false)
  }

  /** One line typed: empty lines are skipped, `/` lines are commands, anything else is sent as typed. */
  function Typed(o: Outbound, msg: string, disk: map<string, seq<byte>>): (r: (Outbound, bool))
  {
    if msg == "" then (o, false)
    else if "/" <= msg then Handled(o, msg, disk)
    else (o.(sent := o.sent + [Text(msg)]), false)
  }

  /** `send_messages`: the lines typed, in order, until one of them quits. */
  function TypedAll(o: Outbound, inputs: seq<string>, disk: map<string, seq<byte>>): (r: Outbound)
    decreases |inputs|
  {
    if inputs == [] then o
    else
      var (next, quit) := Typed(o, inputs[0], disk);
      if quit then next else TypedAll(next, inputs[1..], disk)
  }

  /** `/time` flips the timestamp flag and sends nothing, so typing it twice restores the flag. */
  lemma TimeToggles(o: Outbound, disk: map<string, seq<byte>>)
    ensures var (once, quit) := Handled(o, "/time", disk);
            && once.showTimestamps == !o.showTimestamps && once.username == o.username
            && once.sent == o.sent && !quit
            && Handled(once, "/time", disk).0 == o
  {
  }

  /**
   * `/nick NAME` makes everything after the first space the user name (spaces
   * included) and sends the whole command, unchanged.
   */
  lemma NickRenames(o: Outbound, cmd: string, disk: map<string, seq<byte>>)
    requires "/nick " <= cmd
    ensures var (r, quit) := Handled(o, cmd, disk);
            && r.username == cmd[6..] && r.sent == o.sent + [Text(cmd)]
            && r.showTimestamps == o.showTimestamps && !quit
  {
    NickSplit(cmd);
    assert cmd[1] == 'n';
  }

  /**
   * `/sendfile <user> <path>` sends the file at `path` to `user`; the target
   * ends at the second space, and the path is the rest, spaces included.
   */
  lemma SendfileArgs(o: Outbound, target: string, path: string, disk: map<string, seq<byte>>)
    requires ' ' !in target
    ensures var (r, quit) := Handled(o, "/sendfile " + target + " " + path, disk);
            r == o.(sent := o.sent + FileFrames(o.username, target, path, disk)) && !quit
  {
    var cmd := "/sendfile " + target + " " + path;
    SendfileSplit(target, path);
    assert "/sendfile " <= cmd by {
      assert cmd == "/sendfile " + (target + " " + path);
    }
    assert cmd[1] == 's';
  }

  lemma SendfileSplit(target: string, path: string)
    requires ' ' !in target
    ensures Split("/sendfile " + target + " " + path, ' ', 2) == ["/sendfile", target, path]
  {
    var cmd := "/sendfile " + target + " " + path;
    var word := "/sendfile";
    assert ' ' !in word by {
      forall k | 0 <= k < |word| ensures word[k] != ' ' { }
    }
    var fields := [word, target, path];
    assert fields[1..] == [target, path] && fields[2..] == [path];
    assert Join([' '], [target, path]) == target + " " + path;
    assert Join([' '], fields) == word + " " + (target + " " + path);
    assert cmd == word + " " + (target + " " + path);
    SplitUnique(cmd, ' ', 2, fields);
  }

  /** `/sendfile` with fewer than two arguments is the usage error: nothing is sent. */
  lemma SendfileUsage(o: Outbound, rest: string, disk: map<string, seq<byte>>)
    requires ' ' !in rest
    ensures Handled(o, "/sendfile " + rest, disk) == (o, false)
  {
    var cmd := "/sendfile " + rest;
    assert cmd == "/sendfile" + [' '] + rest;
    SplitCut("/sendfile", ' ', rest, 2);
    SplitWhole(rest, ' ', 1);
    assert "/sendfile " <= cmd;
    assert cmd[1] == 's';
  }

  /**
   * The lines the client sends to the server exactly as typed: any non-empty
   * line not starting with `/`, and the `/list`, `/quit`, `/pm ` and `/nick `
   * commands.
   */
  predicate Forwarded(msg: string)
  {
    || (msg != "" && msg[0] != '/')
    || msg == "/list" || msg == "/quit" || "/pm " <= msg || "/nick " <= msg
  }

  /**
   * A typed line other than `/sendfile ...` is sent, as typed and once, exactly
   * when it is forwarded; `/help`, `/clear`, `/time`, unknown commands and the
   * empty line send nothing. Only `/quit` ends the client.
   */
  lemma WhatIsSent(o: Outbound, msg: string, disk: map<string, seq<byte>>)
    requires !("/sendfile " <= msg)
    ensures var (r, quit) := Typed(o, msg, disk);
            && (Forwarded(msg) ==> r.sent == o.sent + [Text(msg)])
            && (!Forwarded(msg) ==> r.sent == o.sent)
            && (quit <==> msg == "/quit")
  {
    if msg != "" && msg[0] == '/' {
      assert "/" <= msg;
      CommandSent(o, msg, disk);
    }
  }

  lemma CommandSent(o: Outbound, cmd: string, disk: map<string, seq<byte>>)
    requires "/" <= cmd && !("/sendfile " <= cmd)
    ensures var (r, quit) := Handled(o, cmd, disk);
            && (Forwarded(cmd) ==> r.sent == o.sent + [Text(cmd)])
            && (!Forwarded(cmd) ==> r.sent == o.sent)
            && (quit <==> cmd == "/quit")
  {
    if "/nick " <= cmd {
      NickRenames(o, cmd, disk);
    } else if "/pm " <= cmd {
      assert cmd[1] == 'p';
    }
  }

  /** `after` is `before` with more frames appended, none of them an empty text. */
  ghost predicate AppendsNoEmpty(before: seq<Frame>, after: seq<Frame>)
  {
    && |before| <= |after| && after[..|before|] == before
    && forall k :: |before| <= k < |after| ==> after[k] != Text("")
  }

  lemma AppendsTrans(a: seq<Frame>, b: seq<Frame>, c: seq<Frame>)
    requires AppendsNoEmpty(a, b) && AppendsNoEmpty(b, c)
    ensures AppendsNoEmpty(a, c)
  {
    assert c[..|a|] == c[..|b|][..|a|];
    forall k | |a| <= k < |c|
      ensures c[k] != Text("")
    {
      if k < |b| {
        assert c[k] == c[..|b|][k];
      }
    }
  }

  /** No frame `send_file` writes is an empty text. */
  lemma FileFramesNotEmpty(sent: seq<Frame>, sender: string, target: string, path: string, disk: map<string, seq<byte>>)
    ensures AppendsNoEmpty(sent, sent + FileFrames(sender, target, path, disk))
  {
    var fs := FileFrames(sender, target, path, disk);
    FileFramesPayload(sender, target, path, disk);
    var h := if path in disk then HeaderText(sender, target, Basename(path), |disk[path]|) else Commands.HeaderTag;
    if path in disk {
      HeaderTagged(sender, target, Basename(path), |disk[path]|);
    }
    assert |h| >= |Commands.HeaderTag|;
    HeaderThenData(sent, fs, h);
  }

  lemma HeaderThenData(sent: seq<Frame>, fs: seq<Frame>, h: string)
    requires h != [] && (fs != [] ==> fs[0] == Text(h))
    requires forall k :: 1 <= k < |fs| ==> fs[k].Data?
    ensures AppendsNoEmpty(sent, sent + fs)
  {
    forall j | 0 <= j < |fs|
      ensures fs[j] != Text("")
    {
    }
    NoEmptyAppended(sent, fs);
  }

  lemma NoEmptyAppended(sent: seq<Frame>, fs: seq<Frame>)
    requires forall j :: 0 <= j < |fs| ==> fs[j] != Text("")
    ensures AppendsNoEmpty(sent, sent + fs)
  {
    assert (sent + fs)[..|sent|] == sent;
    forall k | |sent| <= k < |sent + fs|
      ensures (sent + fs)[k] != Text("")
    {
      assert (sent + fs)[k] == fs[k - |sent|];
    }
  }

  /**
   * `send_messages` only ever appends to what was sent, and never sends an
   * empty text, whatever the lines typed.
   */
  lemma {:induction false} NeverSendsEmpty(o: Outbound, inputs: seq<string>, disk: map<string, seq<byte>>)
    ensures AppendsNoEmpty(o.sent, TypedAll(o, inputs, disk).sent)
    decreases |inputs|
  {
    if inputs == [] {
      assert o.sent[..|o.sent|] == o.sent;
    } else {
      var (next, quit) := Typed(o, inputs[0], disk);
      InputNotEmpty(o, inputs[0], disk);
      if !quit {
        NeverSendsEmpty(next, inputs[1..], disk);
        AppendsTrans(o.sent, next.sent, TypedAll(next, inputs[1..], disk).sent);
      }
    }
  }

  /** One typed line appends to what was sent, and no empty text. */
  lemma InputNotEmpty(o: Outbound, msg: string, disk: map<string, seq<byte>>)
    ensures AppendsNoEmpty(o.sent, Typed(o, msg, disk).0.sent)
  {
    var r := Typed(o, msg, disk).0;
    if msg != "" && "/" <= msg && !("/nick " <= msg) && "/sendfile " <= msg {
      var parts := Split(msg, ' ', 2);
      if |parts| == 3 {
        FileFramesNotEmpty(o.sent, o.username, parts[1], parts[2], disk);
        assert r.sent == o.sent + FileFrames(o.username, parts[1], parts[2], disk);
      } else {
        assert r.sent == o.sent;
        assert o.sent[..|o.sent|] == o.sent;
      }
    } else if r.sent == o.sent {
      assert o.sent[..|o.sent|] == o.sent;
    } else {
      assert r.sent == o.sent + [Text(msg)];
      assert r.sent[..|o.sent|] == o.sent;
    }
  }

  /** What the receive loop has logged (`chat_history.txt`) and saved (`received_files/`). */
  datatype Inbox = Inbox(history: seq<string>, files: map<string, seq<byte>>)

  /** Why the receive loop stopped: the server closed, or a header raised (caught by the bare `except`). */
  datatype Ending = Closed | Crashed

  datatype Turn = Next(inbox: Inbox, rest: Stream) | Stop(rest: Stream, ending: Ending)

  /**
   * One turn of `receive_messages`: read up to 1024 bytes; stop on an empty
   * read; save a file after a header; otherwise log the formatted text.
   */
  function ReceiveTurn(box: Inbox, s: Stream, show: bool, now: string): (r: Turn)
    ensures r.Next? ==> Bytes(r.rest) < Bytes(s)
  {
    var (unit, s1) := Recv(s, LineSize);
    var message := Decode(unit);
    if message == [] then Stop(s1, Closed)
    else if Commands.HeaderTag <= message then
      match ParseHeader(message)
      case None => Stop(s1, Crashed)
      case Some(h) =>
        var (chunks, s2) := Pump(s1, h.size);
        Next(box.(files := box.files[h.filename := Concat(chunks)]), s2)
    else Next(box.(history := box.history + [FormatMessage(show, now, message)]), s1)
  }

  /** `receive_messages`: turns until one stops. */
  function Receive(box: Inbox, s: Stream, show: bool, now: string): (r: (Inbox, Stream, Ending))
    decreases Bytes(s)
  {
    match ReceiveTurn(box, s, show, now)
    case Stop(rest, ending) => (box, rest, ending)
    case Next(next, rest) => Receive(next, rest, show, now)
  }

  /**
   * The file loop of `receive_messages`: the saved file holds exactly the
   * first min(size, available) bytes of what followed the header, in order,
   * and reading resumes right after them.
   */
  lemma ReceiveSavesPrefix(box: Inbox, s: Stream, show: bool, now: string)
    requires var message := Decode(Recv(s, LineSize).0);
             Commands.HeaderTag <= message && ParseHeader(message).Some?
    ensures var (unit, s1) := Recv(s, LineSize);
            var h := ParseHeader(Decode(unit)).value;
            var n := Min(if h.size < 0 then 0 else h.size, |Available(s1)|);
            var r := ReceiveTurn(box, s, show, now);
            && r.Next? && r.inbox.history == box.history
            && r.inbox.files == box.files[h.filename := Available(s1)[..n]]
            && Available(r.rest) == Available(s1)[n..]
  {
    var (unit, s1) := Recv(s, LineSize);
    var h := ParseHeader(Decode(unit)).value;
    PumpPrefix(s1, h.size);
  }

  /**
   * A text that is not a header is logged once, formatted, and nothing is saved.
   */
  lemma ReceiveLogsText(box: Inbox, s: Stream, show: bool, now: string)
    requires var message := Decode(Recv(s, LineSize).0);
             message != [] && !(Commands.HeaderTag <= message)
    ensures var (unit, s1) := Recv(s, LineSize);
            var r := ReceiveTurn(box, s, show, now);
            && r == Next(Inbox(box.history + [FormatMessage(show, now, Decode(unit))], box.files), s1)
            && |r.inbox.history| == |box.history| + 1
  {
  }

  /** One turn only appends to the log, and stops as closed only on an empty stream. */
  lemma TurnEnds(box: Inbox, s: Stream, show: bool, now: string)
    ensures var t := ReceiveTurn(box, s, show, now);
            && (t.Next? ==> box.history <= t.inbox.history)
            && (t.Stop? && t.ending == Closed ==> Available(t.rest) == [])
  {
  }

  /**
   * The receive loop only appends to the log; it stops on an empty read only
   * once the server has nothing more to give, and a malformed header stops it.
   */
  lemma {:induction false} ReceiveEnds(box: Inbox, s: Stream, show: bool, now: string)
    ensures var (r, rest, ending) := Receive(box, s, show, now);
            && box.history <= r.history
            && (ending == Closed ==> Available(rest) == [])
    decreases Bytes(s)
  {
    TurnEnds(box, s, show, now);
    match ReceiveTurn(box, s, show, now)
    case Stop(rest, ending) =>
    case Next(next, rest) =>
      ReceiveEnds(next, rest, show, now);
  }

  /** What a stream holds when every unit of a list is non-empty: those bytes, then the rest. */
  lemma {:induction false} AvailableAfter(chunks: seq<seq<byte>>, more: Stream)
    requires forall k :: 0 <= k < |chunks| ==> chunks[k] != []
    ensures Available(chunks + more) == Concat(chunks) + Available(more)
  {
    if chunks != [] {
      assert (chunks + more)[0] == chunks[0];
      assert (chunks + more)[1..] == chunks[1..] + more;
      AvailableAfter(chunks[1..], more);
      AppendAssoc(chunks[0], Concat(chunks[1..]), Available(more));
    } else {
      assert chunks + more == more;
    }
  }

  /**
   * A file goes through whole: when a client receives, as one unit of at most
   * 1024 bytes, the header another client built for `data` and then the
   * chunks `send_file` cut `data` into, it saves exactly `data` under the
   * filename and logs nothing.
   */
  lemma FileArrives(box: Inbox, unit: seq<byte>, sender: string, target: string, filename: string,
                    data: seq<byte>, more: Stream, show: bool, now: string)
    requires ' ' !in sender && ' ' !in target && ' ' !in filename
    requires Decode(unit) == HeaderText(sender, target, filename, |data|) && |unit| <= LineSize
    ensures var r := ReceiveTurn(box, [unit] + Chunked(data) + more, show, now);
            r.Next? && r.inbox == Inbox(box.history, box.files[filename := data])
  {
    var s := [unit] + Chunked(data) + more;
    var after := Chunked(data) + more;
    AppendAssoc([unit], Chunked(data), more);
    assert s[0] == unit && s[1..] == ([unit] + after)[1..] == after;
    HeaderTagged(sender, target, filename, |data|);
    assert unit != [];
    assert Recv(s, LineSize) == (unit, after);
    HeaderReachesClient(sender, target, filename, |data|);
    AvailableAfter(Chunked(data), more);
    ReceiveSavesPrefix(box, s, show, now);
    assert Available(after)[..|data|] == data;
  }

  /**
   * The server's relay, as the receiving client reads it: the header text the
   * server forwarded arrives as one unit, then each chunk the server's relay
   * loop read arrives as its own unit. When the sender's stream held the whole
   * announced size, the client saves exactly those bytes under the announced
   * filename and logs nothing.
   */
  lemma RelayedFileArrives(box: Inbox, unit: seq<byte>, s: Stream, filesize: int, more: Stream, show: bool, now: string)
    requires |unit| <= LineSize && Commands.HeaderTag <= Decode(unit)
    requires ParseHeader(Decode(unit)).Some? && ParseHeader(Decode(unit)).value.size == filesize
    requires filesize <= |Available(s)|
    ensures var r := ReceiveTurn(box, [unit] + Pump(s, filesize).0 + more, show, now);
            var n := if filesize < 0 then 0 else filesize;
            r.Next? && r.inbox == Inbox(box.history, box.files[ParseHeader(Decode(unit)).value.filename := Available(s)[..n]])
  {
    RelayedUnits(unit, s, filesize, more);
    PumpPrefix(s, filesize);
    ReceiveSavesPrefix(box, [unit] + Pump(s, filesize).0 + more, show, now);
  }

  /**
   * A sender that disconnects before the announced size: the server relays
   * only the bytes the sender's stream held, but the receiving client's file
   * loop keeps reading, so whatever follows on the receiver's own connection
   * (`more`, the leave notice say) is written into the file too, up to the
   * announced size.
   */
  lemma ShortRelayMixes(box: Inbox, unit: seq<byte>, s: Stream, filesize: int, more: Stream, show: bool, now: string)
    requires |unit| <= LineSize && Commands.HeaderTag <= Decode(unit)
    requires ParseHeader(Decode(unit)).Some? && ParseHeader(Decode(unit)).value.size == filesize
    requires |Available(s)| < filesize
    ensures var r := ReceiveTurn(box, [unit] + Pump(s, filesize).0 + more, show, now);
            var got := Available(s) + Available(more);
            var n := Min(filesize, |got|);
            && r.Next? && r.inbox == Inbox(box.history, box.files[ParseHeader(Decode(unit)).value.filename := got[..n]])
            && got[..n][..|Available(s)|] == Available(s)
            && got[..n][|Available(s)|..] == Available(more)[..n - |Available(s)|]
  {
    var chunks := Pump(s, filesize).0;
    RelayedUnits(unit, s, filesize, more);
    PumpPrefix(s, filesize);
    assert Concat(chunks) == Available(s)[..|Available(s)|] == Available(s);
    var got := Available(s) + Available(more);
    assert Available(chunks + more) == got;
    ReceiveSavesPrefix(box, [unit] + chunks + more, show, now);
    PrefixOfJoin(Available(s), Available(more), Min(filesize, |got|));
  }

  /**
   * The units a receiving client reads after a relayed header: the header
   * itself first, then the relayed chunks and what follows them, whose bytes
   * are the chunks' bytes and then the bytes that follow.
   */
  lemma RelayedUnits(unit: seq<byte>, s: Stream, filesize: int, more: Stream)
    requires |unit| <= LineSize && Commands.HeaderTag <= Decode(unit)
    ensures var chunks := Pump(s, filesize).0;
            && Recv([unit] + chunks + more, LineSize) == (unit, chunks + more)
            && Available(chunks + more) == Concat(chunks) + Available(more)
  {
    var chunks := Pump(s, filesize).0;
    var after := chunks + more;
    var units := [unit] + chunks + more;
    AppendAssoc([unit], chunks, more);
    assert units[0] == unit && units[1..] == ([unit] + after)[1..] == after;
    assert unit != [] by {
      assert |Commands.HeaderTag| <= |Decode(unit)|;
    }
    PumpReads(s, filesize);
    ReadsNonEmpty(chunks, filesize);
    AvailableAfter(chunks, more);
  }

  lemma PrefixOfJoin(a: seq<byte>, b: seq<byte>, n: int)
    requires |a| <= n <= |a| + |b|
    ensures (a + b)[..n][..|a|] == a && (a + b)[..n][|a|..] == b[..n - |a|]
  {
  }

  /** What the file loop ends with, from the bytes `data` written so far, the stream `s` and the `remaining` count. */
  ghost function Saved(data: seq<byte>, s: Stream, remaining: int): (seq<byte>, Stream)
  {
    var p := Pump(s, remaining);
    (data + Concat(p.0), p.1)
  }

  /** One turn of the file loop: an empty read ends it, any other read is written and leaves the same end in view. */
  lemma SaveTurn(data: seq<byte>, s: Stream, remaining: int)
    requires remaining > 0
    ensures var (chunk, next) := Recv(s, Min(ChunkSize, remaining));
            Saved(data, s, remaining)
              == if chunk == [] then (data, next) else Saved(data + chunk, next, remaining - |chunk|)
  {
    var (chunk, next) := Recv(s, Min(ChunkSize, remaining));
    PumpStep(s, remaining);
    if chunk == [] {
      assert data + [] == data;
    } else {
      var more := Pump(next, remaining - |chunk|).0;
      assert ([chunk] + more)[1..] == more;
      AppendAssoc(data, chunk, Concat(more));
    }
  }

  /**
   * The file loop of `receive_messages`: `while remaining > 0: chunk =
   * recv(min(4096, remaining)); if not chunk: break; f.write(chunk);
   * remaining -= len(chunk)`. It writes exactly the first min(size, available)
   * bytes, in order.
   */
  method ReceiveFile(s: Stream, filesize: int) returns (data: seq<byte>, rest: Stream)
    ensures data == Concat(Pump(s, filesize).0) && rest == Pump(s, filesize).1
    ensures var n := Min(if filesize < 0 then 0 else filesize, |Available(s)|);
            data == Available(s)[..n] && Available(rest) == Available(s)[n..]
  {
    ghost var goal := Saved([], s, filesize);
    assert [] + Concat(Pump(s, filesize).0) == Concat(Pump(s, filesize).0);
    data := [];
    rest := s;
    var remaining := filesize;
    while remaining > 0
      invariant Saved(data, rest, remaining) == goal
      decreases Bytes(rest)
    {
      var (chunk, next) := Recv(rest, Min(ChunkSize, remaining));
      SaveTurn(data, rest, remaining);
      if chunk == [] {
        rest := next;
        break;
      }
      data := data + chunk;
      remaining := remaining - |chunk|;
      rest := next;
    }
    assert data + [] == data;
    PumpPrefix(s, filesize);
  }

  /** The client: its two globals, its socket's outgoing side, its chat log and its received files. */
  class ChatClient {
    /** `SHOW_TIMESTAMPS`. */
    var showTimestamps: bool
    /** `USERNAME`. */
    var username: string
    /** Everything written to the socket, in order. */
    var sent: seq<Frame>
    /** The formatted lines the receive loop printed and appended to the chat log. */
    var history: seq<string>
    /** The received files, by filename. */
    var files: map<string, seq<byte>>

    function Out(): Outbound
      reads this
    {
      Outbound(showTimestamps, username, sent)
    }

    function In(): Inbox
      reads this
    {
      Inbox(history, files)
    }

    /** A client that has registered as `username`; timestamps start on. */
    constructor (username: string)
      ensures Out() == Outbound(true, username, []) && In() == Inbox([], map[])
    {
      showTimestamps := true;
      this.username := username;
      sent := [];
      history := [];
      files := map[];
    }

    /** `send_file(sock, USERNAME, target, path)`. */
    method SendFile(target: string, path: string, disk: map<string, seq<byte>>)
      modifies this
      ensures sent == old(sent) + FileFrames(username, target, path, disk)
      ensures username == old(username) && showTimestamps == old(showTimestamps)
      ensures history == old(history) && files == old(files)
    {
      if path !in disk {
        assert sent + [] == sent;
        return;
      }
      ghost var start := sent;
      var data := disk[path];
      var header := Text(HeaderText(username, target, Basename(path), |data|));
      sent := sent + [header];
      SendChunks(data);
      FileFramesFound(start, username, target, path, disk);
    }

    /** The chunk loop of `send_file`: `f.read(4096)` until it comes back empty, each chunk sent whole. */
    method SendChunks(data: seq<byte>)
      modifies this
      ensures sent == old(sent) + DataFrames(Chunked(data))
      ensures username == old(username) && showTimestamps == old(showTimestamps)
      ensures history == old(history) && files == old(files)
    {
      ghost var goal := old(sent) + DataFrames(Chunked(data));
      assert data[0..] == data;
      var pos := 0;
      while true
        invariant 0 <= pos <= |data|
        invariant sent + DataFrames(Chunked(data[pos..])) == goal
        invariant username == old(username) && showTimestamps == old(showTimestamps)
        invariant history == old(history) && files == old(files)
        decreases |data| - pos
      {
        var chunk := data[pos..pos + Min(ChunkSize, |data| - pos)];
        if chunk == [] {
          assert data[pos..] == [] && sent + [] == sent;
          break;
        }
        SendTurn(sent, data, pos, goal);
        sent := sent + [Data(chunk)];
        pos := pos + |chunk|;
      }
    }

    /** `handle_command(cmd, sock)`; `quit` is the `sys.exit` of `/quit`. */
    method HandleCommand(cmd: string, disk: map<string, seq<byte>>) returns (quit: bool)
      modifies this
      ensures (Out(), quit) == Handled(old(Out()), cmd, disk)
      ensures In() == old(In())
    {
      quit := false;
      if cmd == "/help" || cmd == "/clear" {
      } else if cmd == "/time" {
        showTimestamps := !showTimestamps;
      } else if "/nick " <= cmd {
        NickSplit(cmd);
        username := Split(cmd, ' ', 1)[1];
        sent := sent + [Text(cmd)];
      } else if "/sendfile " <= cmd {
        var parts := Split(cmd, ' ', 2);
        if |parts| == 3 {
          SendFile(parts[1], parts[2], disk);
        }
      } else if cmd == "/list" || "/pm " <= cmd {
        sent := sent + [Text(cmd)];
      } else if cmd == "/quit" {
        sent := sent + [Text(cmd)];
        quit := true;
      }
    }

    /** `send_messages`: handle the lines typed, in order, until one quits. */
    method SendMessages(inputs: seq<string>, disk: map<string, seq<byte>>)
      modifies this
      ensures Out() == TypedAll(old(Out()), inputs, disk)
      ensures In() == old(In())
    {
      var i := 0;
      while i < |inputs|
        invariant 0 <= i <= |inputs|
        invariant TypedAll(Out(), inputs[i..], disk) == TypedAll(old(Out()), inputs, disk)
        invariant In() == old(In())
      {
        var msg := inputs[i];
        assert inputs[i..][0] == msg && inputs[i..][1..] == inputs[i + 1..];
        if msg == "" {
          i := i + 1;
          continue;
        }
        if "/" <= msg {
          var quit := HandleCommand(msg, disk);
          if quit {
            return;
          }
        } else {
          sent := sent + [Text(msg)];
        }
        i := i + 1;
      }
    }

    /** `receive_messages(sock)`, with the timestamp flag as it stands and the clock reading `now`. */
    method ReceiveMessages(s: Stream, now: string) returns (rest: Stream, ending: Ending)
      modifies this
      ensures (Inbox(history, files), rest, ending) == Receive(old(Inbox(history, files)), s, showTimestamps, now)
      ensures username == old(username) && showTimestamps == old(showTimestamps) && sent == old(sent)
    {
      ghost var goal := Receive(Inbox(history, files), s, showTimestamps, now);
      rest := s;
      while true
        invariant Receive(Inbox(history, files), rest, showTimestamps, now) == goal
        invariant username == old(username) && showTimestamps == old(showTimestamps) && sent == old(sent)
        decreases Bytes(rest)
      {
        var next, stop := ReceiveOne(rest, now);
        if stop.Some? {
          rest, ending := next, stop.value;
          return;
        }
        rest := next;
      }
    }

    /** One turn of the loop of `receive_messages`: `stop` is why it ended, if it did. */
    method ReceiveOne(s: Stream, now: string) returns (rest: Stream, stop: Option<Ending>)
      modifies this
      ensures var t := ReceiveTurn(old(Inbox(history, files)), s, showTimestamps, now);
              && rest == t.rest && Bytes(rest) <= Bytes(s)
              && (t.Next? ==> stop == None && Inbox(history, files) == t.inbox && Bytes(rest) < Bytes(s))
              && (t.Stop? ==> stop == Some(t.ending) && Inbox(history, files) == old(Inbox(history, files)))
      ensures username == old(username) && showTimestamps == old(showTimestamps) && sent == old(sent)
    {
      var (unit, next) := Recv(s, LineSize);
      var message := Decode(unit);
      if message == [] {
        return next, Some(Closed);
      }
      if Commands.HeaderTag <= message {
        match ParseHeader(message)
        case None =>
          return next, Some(Crashed);
        case Some(h) =>
          var data, after := ReceiveFile(next, h.size);
          files := files[h.filename := data];
          return after, None;
      }
      history := history + [FormatMessage(showTimestamps, now, message)];
      return next, None;
    }
  }

  /** One turn of the chunk loop of `send_file`: the chunk read at `pos` goes out, and the rest is still owed. */
  lemma SendTurn(sent: seq<Frame>, data: seq<byte>, pos: nat, goal: seq<Frame>)
    requires pos < |data| && sent + DataFrames(Chunked(data[pos..])) == goal
    ensures var chunk := data[pos..pos + Min(ChunkSize, |data| - pos)];
            (sent + [Data(chunk)]) + DataFrames(Chunked(data[pos + |chunk|..])) == goal
  {
    var chunk := data[pos..pos + Min(ChunkSize, |data| - pos)];
    SendChunk(data, pos);
    AppendAssoc(sent, [Data(chunk)], DataFrames(Chunked(data[pos + |chunk|..])));
  }

  /** One chunk `f.read(4096)` returns at `pos`, and the chunks after it. */
  lemma SendChunk(data: seq<byte>, pos: nat)
    requires pos < |data|
    ensures var chunk := data[pos..pos + Min(ChunkSize, |data| - pos)];
            DataFrames(Chunked(data[pos..])) == [Data(chunk)] + DataFrames(Chunked(data[pos + |chunk|..]))
  {
    var d := data[pos..];
    var n := Min(ChunkSize, |d|);
    assert d[..n] == data[pos..pos + n] && d[n..] == data[pos + n..];
    assert Chunked(d) == [d[..n]] + Chunked(d[n..]);
    DataFramesCons(d[..n], Chunked(d[n..]));
  }
}

=== FILE: commands.dfy ===
/**
 * The server's command classifier (`parse_command`): it strips the received
 * text and decides what kind of command it is by its prefix.
 */
module Commands {
  import opened Wrappers
  import opened Strings

  datatype Command =
    | PrivateMessage(target: string, message: string)
    | Invalid(error: string)
    | FileHeader(sender: string, target: string, filename: string, filesize: int)
    | Quit
    | List
    | Broadcast(message: string)

  /** The classifier either returns a command or raises (a malformed file header). */
  datatype Parsed = Parsed(command: Command) | Raises

  const PmUsage := "Usage: /pm <user> <message>"

  /** The first word of a file header line. */
  const HeaderTag := "FILE_HEADER"

  function ParseCommand(raw: string): Parsed
  {
    var m := Strip(raw);
    if "/pm " <= m then Parsed(ParsePrivate(m[4..]))
    else if HeaderTag <= m then ParseFileHeader(m)
    else if "/quit" <= m then Parsed(Quit)
    else if "/list" <= m then Parsed(List)
    else Parsed(Broadcast(m))
  }

  /** The text after `/pm `: a target, one space, then the message. */
  function ParsePrivate(rest: string): Command
  {
    var parts := Split(rest, ' ', 1);
    if |parts| == 2 then PrivateMessage(parts[0], parts[1]) else Invalid(PmUsage)
  }

  /** `_, sender, target, filename, filesize = m.split(" ", 4)` then `int(filesize)`; either can raise. */
  function ParseFileHeader(m: string): (r: Parsed)
    ensures r.Parsed? ==> r.command.FileHeader?
  {
    var fields := Split(m, ' ', 4);
    if |fields| < 5 then Raises
    else match ParseInt(fields[4])
      case None => Raises
      case Some(size) => Parsed(FileHeader(fields[1], fields[2], fields[3], size))
  }

  /** No text starts with two of the four command prefixes, so their order never decides anything. */
  lemma PrefixesExclusive(m: string)
    ensures !("/pm " <= m && HeaderTag <= m)
    ensures !("/pm " <= m && "/quit" <= m) && !("/pm " <= m && "/list" <= m)
    ensures !(HeaderTag <= m && "/quit" <= m) && !(HeaderTag <= m && "/list" <= m)
    ensures !("/quit" <= m && "/list" <= m)
  {
    if "/pm " <= m { assert m[1] == 'p'; }
    if "/quit" <= m { assert m[1] == 'q'; }
    if "/list" <= m { assert m[1] == 'l'; }
    if HeaderTag <= m { assert m[0] == 'F'; }
  }

  /**
   * A private message: the stripped text is `/pm `, the target, one space and
   * the message. The target is everything before the first space after `/pm `
   * (possibly empty); the message is everything after it, spaces included.
   */
  lemma PrivateMessageSplit(raw: string, target: string, message: string)
    ensures ParseCommand(raw) == Parsed(PrivateMessage(target, message))
        <==> Strip(raw) == "/pm " + target + " " + message && ' ' !in target
  {
    if ParseCommand(raw) == Parsed(PrivateMessage(target, message)) {
      PrivateMessageFields(raw);
    }
    if Strip(raw) == "/pm " + target + " " + message && ' ' !in target {
      PrivateMessageFromFields(raw, target, message);
    }
  }

  lemma PrivateMessageFields(raw: string)
    requires ParseCommand(raw).Parsed? && ParseCommand(raw).command.PrivateMessage?
    ensures var c := ParseCommand(raw).command;
            Strip(raw) == "/pm " + c.target + " " + c.message && ' ' !in c.target
  {
    PrivateNeedsPrefix(raw);
    PrivateBranch(raw);
    PrivateText(Strip(raw));
  }

  lemma PrivateText(m: string)
    requires "/pm " <= m && ParsePrivate(m[4..]).PrivateMessage?
    ensures var c := ParsePrivate(m[4..]);
            m == "/pm " + c.target + " " + c.message && ' ' !in c.target
  {
    var c := ParsePrivate(m[4..]);
    PrivateFields(m[4..]);
    PmText(c.target, c.message);
    SameAfterPrefix(m, "/pm " + c.target + " " + c.message, 4);
  }

  lemma SameAfterPrefix(a: string, b: string, n: nat)
    requires n <= |a| && n <= |b| && a[..n] == b[..n] && a[n..] == b[n..]
    ensures a == b
  {
    assert a == a[..n] + a[n..];
    assert b == b[..n] + b[n..];
  }

  /** A text starting with `/pm ` is parsed as a private message from what follows. */
  lemma PrivateBranch(raw: string)
    requires "/pm " <= Strip(raw)
    ensures ParseCommand(raw) == Parsed(ParsePrivate(Strip(raw)[4..]))
  {
  }

  /** Only the `/pm ` branch produces a private message or the usage error. */
  lemma PrivateNeedsPrefix(raw: string)
    requires ParseCommand(raw).Parsed?
    requires ParseCommand(raw).command.PrivateMessage? || ParseCommand(raw).command.Invalid?
    ensures "/pm " <= Strip(raw)
  {
  }

  lemma PrivateFields(rest: string)
    requires ParsePrivate(rest).PrivateMessage?
    ensures rest == ParsePrivate(rest).target + " " + ParsePrivate(rest).message
    ensures ' ' !in ParsePrivate(rest).target
  {
    var parts := Split(rest, ' ', 1);
    SplitJoins(rest, ' ', 1);
    SplitFields(rest, ' ', 1, 0);
    assert Join([' '], parts) == parts[0] + " " + parts[1];
  }

  lemma PrivateMessageFromFields(raw: string, target: string, message: string)
    requires Strip(raw) == "/pm " + target + " " + message && ' ' !in target
    ensures ParseCommand(raw) == Parsed(PrivateMessage(target, message))
  {
    PmText(target, message);
    PrivateBranch(raw);
    PairSplit(target, message);
  }

  lemma PmText(target: string, message: string)
    ensures var m := "/pm " + target + " " + message;
            "/pm " <= m && m[4..] == target + " " + message
  {
    var m := "/pm " + target + " " + message;
    assert m == "/pm " + (target + " " + message);
  }

  lemma PairSplit(target: string, message: string)
    requires ' ' !in target
    ensures Split(target + " " + message, ' ', 1) == [target, message]
  {
    assert Join([' '], [target, message]) == target + " " + message;
    SplitUnique(target + " " + message, ' ', 1, [target, message]);
  }

  /** `/pm` with a target but no space after it is the usage error, and nothing else is. */
  lemma PrivateMessageUsage(raw: string)
    ensures ParseCommand(raw) == Parsed(Invalid(PmUsage))
        <==> "/pm " <= Strip(raw) && ' ' !in Strip(raw)[4..]
  {
    var m := Strip(raw);
    if "/pm " <= m {
      PrivateUsage(m[4..]);
    } else if ParseCommand(raw) == Parsed(Invalid(PmUsage)) {
      PrivateNeedsPrefix(raw);
    }
  }

  lemma PrivateUsage(rest: string)
    ensures ParsePrivate(rest) == Invalid(PmUsage) <==> ' ' !in rest
  {
    IndexOfFirst(rest, ' ');
    if ParsePrivate(rest).PrivateMessage? {
      PrivateFields(rest);
      assert rest[|ParsePrivate(rest).target|] == ' ';
    }
  }

  /** `/quit` and `/list` are recognised as prefixes of the stripped text: `/quitter` quits. */
  lemma QuitAndList(raw: string)
    ensures ParseCommand(raw) == Parsed(Quit) <==> "/quit" <= Strip(raw)
    ensures ParseCommand(raw) == Parsed(List) <==> "/list" <= Strip(raw)
  {
    QuitPrefix(raw);
    ListPrefix(raw);
  }

  lemma QuitPrefix(raw: string)
    ensures ParseCommand(raw) == Parsed(Quit) <==> "/quit" <= Strip(raw)
  {
    PrefixesExclusive(Strip(raw));
  }

  lemma ListPrefix(raw: string)
    ensures ParseCommand(raw) == Parsed(List) <==> "/list" <= Strip(raw)
  {
    PrefixesExclusive(Strip(raw));
  }

  /**
   * Every text that starts with none of the four prefixes, unknown slash
   * commands included, is broadcast as the stripped text, verbatim.
   */
  lemma BroadcastVerbatim(raw: string)
    ensures ParseCommand(raw).Parsed? && ParseCommand(raw).command.Broadcast?
        <==> !("/pm " <= Strip(raw)) && !(HeaderTag <= Strip(raw))
             && !("/quit" <= Strip(raw)) && !("/list" <= Strip(raw))
    ensures ParseCommand(raw).Parsed? && ParseCommand(raw).command.Broadcast?
        ==> ParseCommand(raw).command.message == Strip(raw)
  {
  }

  /** Only a file header can make the classifier raise. */
  lemma OnlyHeadersRaise(raw: string)
    ensures ParseCommand(raw) == Raises ==> HeaderTag <= Strip(raw)
  {
    PrefixesExclusive(Strip(raw));
  }

  /** A text starting with `FILE_HEADER` is parsed as a header. */
  lemma HeaderBranch(raw: string)
    requires HeaderTag <= Strip(raw)
    ensures ParseCommand(raw) == ParseFileHeader(Strip(raw))
  {
    PrefixesExclusive(Strip(raw));
  }

  lemma QuitterQuits()
    ensures ParseCommand("/quitter") == Parsed(Quit)
  {
    var raw := "/quitter";
    StripKeeps(raw);
    assert raw[..5] == "/quit";
    QuitAndList(raw);
  }

  lemma PmWithoutMessage()
    ensures ParseCommand("/pm bob") == Parsed(Invalid(PmUsage))
  {
    var raw := "/pm bob";
    StripKeeps(raw);
    assert raw[..4] == "/pm " && raw[4..] == "bob";
    PrivateMessageUsage(raw);
  }

  lemma UnknownSlashCommand()
    ensures ParseCommand("  /help\n") == Parsed(Broadcast("/help"))
  {
    HelpStripped();
    NoCommandPrefix("/help");
  }

  lemma NoCommandPrefix(m: string)
    requires |m| >= 2 && m[0] == '/' && m[1] == 'h'
    ensures !("/pm " <= m) && !(HeaderTag <= m) && !("/quit" <= m) && !("/list" <= m)
  {
  }

  lemma HelpStripped()
    ensures Strip("  /help\n") == "/help"
  {
    StripAround("  ", "/help", "\n");
    assert "  /help\n" == "  " + "/help" + "\n";
  }

  /**
   * A header line splits into the tag, sender, target and filename (none
   * holding a space) and a size field that is everything after the fourth
   * space; it is a header command when `int()` accepts the size and raises
   * otherwise.
   */
  lemma HeaderFields(raw: string, sender: string, target: string, filename: string, size: string)
    requires Strip(raw) == HeaderTag + " " + sender + " " + target + " " + filename + " " + size
    requires ' ' !in sender && ' ' !in target && ' ' !in filename
    ensures ParseCommand(raw) == match ParseInt(size)
                                 case None => Raises
                                 case Some(n) => Parsed(FileHeader(sender, target, filename, n))
  {
    LeadingField(HeaderTag, sender, target, filename, size);
    HeaderBranch(raw);
    HeaderSplit(Strip(raw), sender, target, filename, size);
  }

  lemma LeadingField(a: string, b: string, c: string, d: string, e: string)
    ensures a <= a + " " + b + " " + c + " " + d + " " + e
  {
    var s := a + " " + b + " " + c + " " + d + " " + e;
    assert s == a + (" " + b + " " + c + " " + d + " " + e);
    assert s[..|a|] == a;
  }

  /** The five fields of a header line, as `split(" ", 4)` cuts them. */
  lemma HeaderSplit(m: string, sender: string, target: string, filename: string, size: string)
    requires m == HeaderTag + " " + sender + " " + target + " " + filename + " " + size
    requires ' ' !in sender && ' ' !in target && ' ' !in filename
    ensures Split(m, ' ', 4) == [HeaderTag, sender, target, filename, size]
  {
    var fields := [HeaderTag, sender, target, filename, size];
    JoinFive(HeaderTag, sender, target, filename, size);
    TagHasNoSpace();
    SplitUnique(m, ' ', 4, fields);
  }

  lemma TagHasNoSpace()
    ensures ' ' !in HeaderTag
  {
    forall k | 0 <= k < |HeaderTag|
      ensures HeaderTag[k] != ' '
    {
    }
  }

  lemma JoinFive(a: string, b: string, c: string, d: string, e: string)
    ensures Join([' '], [a, b, c, d, e]) == a + " " + b + " " + c + " " + d + " " + e
  {
    var f := [a, b, c, d, e];
    assert f[1..] == [b, c, d, e] && f[2..] == [c, d, e] && f[3..] == [d, e] && f[4..] == [e];
    assert Join([' '], [d, e]) == d + " " + e;
    assert Join([' '], [c, d, e]) == c + " " + (d + " " + e);
    assert Join([' '], [b, c, d, e]) == b + " " + (c + " " + (d + " " + e));
    assert Join([' '], f) == a + " " + (b + " " + (c + " " + (d + " " + e)));
  }

  /** A header line with fewer than four spaces has fewer than five fields, so it raises. */
  lemma ShortHeaderRaises(raw: string)
    requires HeaderTag <= Strip(raw)
    requires Count(Strip(raw), ' ') < 4
    ensures ParseCommand(raw) == Raises
  {
    HeaderBranch(raw);
    SplitCount(Strip(raw), ' ', 4);
  }
}

=== FILE: registry.dfy ===
/**
 * The server's registry of users (the `clients` dict) and what a send does to
 * it. A connection is the index of its outbox: the frames written to it, in
 * order. A send to a connection in the fixed `dead` set raises; any other send
 * appends one frame to that connection's outbox.
 */
module Registry {
  import opened Wrappers
  import opened Streams

  /** A connection, named by the index of its outbox. */
  type Conn = nat

  /**
   * The registry (`clients`, a dict, with its insertion order kept in `order`),
   * every connection's outbox, and the connections whose sends fail.
   */
  datatype State = State(clients: map<string, Conn>, order: seq<string>, outbox: seq<seq<Frame>>, dead: set<Conn>)

  predicate Distinct(names: seq<string>)
  {
    forall i, j :: 0 <= i < j < |names| ==> names[i] != names[j]
  }

  /** The order lists each registered name once, and each name has its own connection. */
  ghost predicate Valid(st: State)
  {
    && Distinct(st.order)
    && (forall u :: u in st.clients <==> u in st.order)
    && (forall u :: u in st.clients ==> st.clients[u] < |st.outbox|)
    && (forall u, v :: u in st.clients && v in st.clients && st.clients[u] == st.clients[v] ==> u == v)
  }

  /** Appends one frame to a connection that is known to accept it. */
  function Put(st: State, c: Conn, f: Frame): (r: State)
    requires c < |st.outbox|
  {
    st.(outbox := st.outbox[c := st.outbox[c] + [f]])
  }

  /** Appends frames, in order, to a connection that is known to accept them. */
  function PutAll(st: State, c: Conn, fs: seq<Frame>): (r: State)
    requires c < |st.outbox|
  {
    st.(outbox := st.outbox[c := st.outbox[c] + fs])
  }

  /** Appending a frame and then more is appending them all at once. */
  lemma PutAllCons(st: State, c: Conn, f: Frame, fs: seq<Frame>)
    requires c < |st.outbox|
    ensures PutAll(Put(st, c, f), c, fs) == PutAll(st, c, [f] + fs)
  {
    assert st.outbox[c] + [f] + fs == st.outbox[c] + ([f] + fs);
  }

  lemma PutAllNone(st: State, c: Conn)
    requires c < |st.outbox|
    ensures PutAll(st, c, []) == st
  {
    assert st.outbox[c] + [] == st.outbox[c];
    assert st.outbox[c := st.outbox[c]] == st.outbox;
  }

  /** `conn.sendall(...)`: false stands for the exception a dead connection raises. */
  function Send(st: State, c: Conn, f: Frame): (r: (State, bool))
    requires c < |st.outbox|
  {
    if c in st.dead then (st, false) else (Put(st, c, f), true)
  }

  /** `clients[name] = conn`, a name that is not registered yet. */
  function Register(st: State, name: string, c: Conn): (r: State)
    requires name !in st.clients
  {
    st.(clients := st.clients[name := c], order := st.order + [name])
  }

  /** The names of `names` that are not in `gone`, in their order. */
  function Without(names: seq<string>, gone: seq<string>): (r: seq<string>)
    ensures forall u :: u in r <==> u in names && u !in gone
    ensures |r| <= |names|
  {
    if names == [] then []
    else (if names[0] in gone then [] else [names[0]]) + Without(names[1..], gone)
  }

  /** `del clients[user]` for each user in `gone`. */
  function RemoveAll(st: State, gone: seq<string>): (r: State)
  {
    st.(clients := map u | u in st.clients && u !in gone :: st.clients[u], order := Without(st.order, gone))
  }

  /** `if username in clients: del clients[username]`. */
  function Unregister(st: State, name: string): (r: State)
  {
    if name in st.clients then RemoveAll(st, [name]) else st
  }

  /** `f"[{sender}] {msg}" if sender else msg`: no sender and the empty name both leave the text bare. */
  function Formatted(msg: string, sender: Option<string>): string
  {
    if sender.Some? && sender.value != "" then "[" + sender.value + "] " + msg else msg
  }

  /**
   * The first loop of `broadcast`: in registration order, every user other
   * than the sender is sent the text; the users whose send failed are
   * collected, in order.
   */
  function Deliver(st: State, users: seq<string>, sender: Option<string>, text: string): (r: (State, seq<string>))
    requires forall u :: u in users ==> u in st.clients && st.clients[u] < |st.outbox|
    ensures r.0.clients == st.clients && r.0.order == st.order && r.0.dead == st.dead
    ensures |r.0.outbox| == |st.outbox|
    decreases |users|
  {
    if users == [] then (st, [])
    else
      var u := users[0];
      if sender == Some(u) then Deliver(st, users[1..], sender, text)
      else
        var (next, ok) := Send(st, st.clients[u], Text(text));
        var (last, failed) := Deliver(next, users[1..], sender, text);
        (last, if ok then failed else [u] + failed)
  }

  /** One turn of the delivery loop. */
  lemma DeliverUnfold(st: State, users: seq<string>, sender: Option<string>, text: string)
    requires users != []
    requires forall u :: u in users ==> u in st.clients && st.clients[u] < |st.outbox|
    ensures var u := users[0];
            var (next, ok) := Send(st, st.clients[u], Text(text));
            Deliver(st, users, sender, text)
              == if sender == Some(u) then Deliver(st, users[1..], sender, text)
                 else (Deliver(next, users[1..], sender, text).0,
                       if ok then Deliver(next, users[1..], sender, text).1
                       else [u] + Deliver(next, users[1..], sender, text).1)
  {
  }

  /** `broadcast(msg, sender)`: deliver to everyone but the sender, then drop the users whose send failed. */
  function Broadcast(st: State, msg: string, sender: Option<string>): (r: State)
    requires Valid(st)
  {
    var (delivered, failed) := Deliver(st, st.order, sender, Formatted(msg, sender));
    RemoveAll(delivered, failed)
  }

  /** A registered user other than the sender whose connection `c` is and whose send succeeds. */
  predicate Reached(st: State, users: seq<string>, sender: Option<string>, c: Conn)
  {
    exists u :: u in users && u in st.clients && sender != Some(u) && st.clients[u] == c && c !in st.dead
  }

  /** A user that `broadcast` removes: not the sender, and its send failed. */
  predicate Dropped(st: State, sender: Option<string>, u: string)
    requires u in st.clients
  {
    sender != Some(u) && st.clients[u] in st.dead
  }

  /** The names of `names` that `broadcast` keeps, in their order. */
  function Survivors(st: State, names: seq<string>, sender: Option<string>): (r: seq<string>)
    requires forall u :: u in names ==> u in st.clients
  {
    if names == [] then []
    else (if Dropped(st, sender, names[0]) then [] else [names[0]]) + Survivors(st, names[1..], sender)
  }

  /**
   * The delivery loop gives every reached connection exactly one copy of the
   * text, appended to what it held, and leaves every other connection as it was.
   */
  lemma {:induction false} DeliverOutbox(st: State, users: seq<string>, sender: Option<string>, text: string, c: Conn)
    requires forall u :: u in users ==> u in st.clients && st.clients[u] < |st.outbox|
    requires Distinct(users)
    requires forall u, v :: u in users && v in users && st.clients[u] == st.clients[v] ==> u == v
    requires c < |st.outbox|
    ensures Deliver(st, users, sender, text).0.outbox[c]
         == st.outbox[c] + (if Reached(st, users, sender, c) then [Text(text)] else [])
    decreases |users|
  {
    if users != [] {
      var u := users[0];
      var tail := users[1..];
      assert Distinct(tail) by {
        forall i, j | 0 <= i < j < |tail| ensures tail[i] != tail[j] {
          assert tail[i] == users[i + 1] && tail[j] == users[j + 1];
        }
      }
      assert u !in tail by {
        forall j | 0 <= j < |tail| ensures tail[j] != u {
          assert tail[j] == users[j + 1];
        }
      }
      if sender == Some(u) {
        DeliverOutbox(st, tail, sender, text, c);
        assert Reached(st, users, sender, c) == Reached(st, tail, sender, c) by {
          if Reached(st, users, sender, c) {
            var v :| v in users && v in st.clients && sender != Some(v) && st.clients[v] == c && c !in st.dead;
            assert v in tail;
          }
        }
      } else {
        var next := Send(st, st.clients[u], Text(text)).0;
        DeliverOutbox(next, tail, sender, text, c);
        assert Reached(next, tail, sender, c) == Reached(st, tail, sender, c);
        if st.clients[u] == c {
          assert !Reached(st, tail, sender, c);
          assert Reached(st, users, sender, c) <==> c !in st.dead;
        } else {
          assert next.outbox[c] == st.outbox[c];
          assert Reached(st, users, sender, c) == Reached(st, tail, sender, c) by {
            if Reached(st, users, sender, c) {
              var v :| v in users && v in st.clients && sender != Some(v) && st.clients[v] == c && c !in st.dead;
              assert v in tail;
            }
          }
        }
      }
    }
  }

  /** The users the delivery loop reports as failed are exactly those, other than the sender, whose connection is dead. */
  lemma {:induction false} DeliverFailed(st: State, users: seq<string>, sender: Option<string>, text: string)
    requires forall u :: u in users ==> u in st.clients && st.clients[u] < |st.outbox|
    ensures forall u :: u in Deliver(st, users, sender, text).1
                    <==> u in users && sender != Some(u) && st.clients[u] in st.dead
    decreases |users|
  {
    if users != [] {
      var u := users[0];
      assert forall v :: v in users <==> v == u || v in users[1..] by {
        assert users == [u] + users[1..];
      }
      if sender == Some(u) {
        DeliverFailed(st, users[1..], sender, text);
      } else {
        var next := Send(st, st.clients[u], Text(text)).0;
        DeliverFailed(next, users[1..], sender, text);
      }
    }
  }

  /** Dropping the names of a list that holds exactly the dropped users keeps the survivors, in order. */
  lemma {:induction false} WithoutDropped(st: State, names: seq<string>, sender: Option<string>, gone: seq<string>)
    requires forall u :: u in names ==> u in st.clients
    requires forall u :: u in names ==> (u in gone <==> Dropped(st, sender, u))
    ensures Without(names, gone) == Survivors(st, names, sender)
  {
    if names != [] {
      WithoutDropped(st, names[1..], sender, gone);
    }
  }

  /** Filtering keeps a list of distinct names distinct. */
  lemma {:induction false} WithoutDistinct(names: seq<string>, gone: seq<string>)
    requires Distinct(names)
    ensures Distinct(Without(names, gone))
  {
    if names != [] {
      var tail := names[1..];
      DistinctTail(names);
      WithoutDistinct(tail, gone);
      if names[0] !in gone {
        DistinctCons(names[0], Without(tail, gone));
      }
    }
  }

  /** The names after the first of a distinct list are distinct and do not repeat the first. */
  lemma DistinctTail(names: seq<string>)
    requires Distinct(names) && names != []
    ensures Distinct(names[1..]) && names[0] !in names[1..]
  {
    var tail := names[1..];
    forall i, j | 0 <= i < j < |tail| ensures tail[i] != tail[j] {
      assert tail[i] == names[i + 1] && tail[j] == names[j + 1];
    }
    forall j | 0 <= j < |tail| ensures tail[j] != names[0] {
      assert tail[j] == names[j + 1];
    }
  }

  /** A name put in front of a distinct list that lacks it keeps the list distinct. */
  lemma DistinctCons(x: string, rest: seq<string>)
    requires Distinct(rest) && x !in rest
    ensures Distinct([x] + rest)
  {
    var r := [x] + rest;
    forall i, j | 0 <= i < j < |r| ensures r[i] != r[j] {
      assert r[j] == rest[j - 1];
      if i > 0 {
        assert r[i] == rest[i - 1];
      }
    }
  }

  /** Dropping one more name after a batch is dropping the longer batch. */
  lemma {:induction false} WithoutStep(names: seq<string>, gone: seq<string>, x: string)
    ensures Without(Without(names, gone), [x]) == Without(names, gone + [x])
  {
    if names != [] {
      var head := names[0];
      var tail := Without(names[1..], gone);
      WithoutStep(names[1..], gone, x);
      if head !in gone {
        assert Without(names, gone) == [head] + tail;
        assert ([head] + tail)[1..] == tail;
        assert Without([head] + tail, [x]) == (if head == x then [] else [head]) + Without(tail, [x]);
        assert Without(names, gone + [x]) == (if head == x then [] else [head]) + Without(names[1..], gone + [x]);
      } else {
        assert Without(names, gone) == tail;
        assert Without(names, gone + [x]) == Without(names[1..], gone + [x]);
      }
    }
  }

  /** Deleting no user changes nothing. */
  lemma RemoveNothing(st: State)
    ensures RemoveAll(st, []) == st
  {
    WithoutNothing(st.order);
    assert RemoveAll(st, []).clients == st.clients;
  }

  lemma {:induction false} WithoutNothing(names: seq<string>)
    ensures Without(names, []) == names
  {
    if names != [] {
      WithoutNothing(names[1..]);
      assert names == [names[0]] + names[1..];
    }
  }

  /** `del clients[x]` after deleting a batch is deleting the batch extended by `x`. */
  lemma RemoveAllStep(st: State, gone: seq<string>, x: string)
    ensures RemoveAll(RemoveAll(st, gone), [x]) == RemoveAll(st, gone + [x])
  {
    WithoutStep(st.order, gone, x);
    var a := RemoveAll(RemoveAll(st, gone), [x]);
    var b := RemoveAll(st, gone + [x]);
    assert a.clients == b.clients;
  }

  /** Removing users keeps the registry valid. */
  lemma RemoveAllValid(st: State, gone: seq<string>)
    requires Valid(st)
    ensures Valid(RemoveAll(st, gone))
  {
    WithoutDistinct(st.order, gone);
  }

  /** Registering a new name on a connection no one else holds keeps the registry valid. */
  lemma RegisterValid(st: State, name: string, c: Conn)
    requires Valid(st) && name !in st.clients
    requires c < |st.outbox| && forall u :: u in st.clients ==> st.clients[u] != c
    ensures Valid(Register(st, name, c))
  {
    var r := Register(st, name, c);
    forall i, j | 0 <= i < j < |r.order| ensures r.order[i] != r.order[j] {
      if j == |st.order| {
        assert r.order[i] == st.order[i] && st.order[i] in st.clients;
      } else {
        assert r.order[i] == st.order[i] && r.order[j] == st.order[j];
      }
    }
  }

  /**
   * `broadcast(msg, sender)` gives every registered user other than the
   * sender whose connection accepts it exactly one copy of the formatted
   * text, `[sender] msg` or the bare `msg`, and sends nothing to anyone else,
   * the sender included.
   */
  lemma BroadcastReaches(st: State, msg: string, sender: Option<string>)
    requires Valid(st)
    ensures var r := Broadcast(st, msg, sender);
            && |r.outbox| == |st.outbox| && r.dead == st.dead
            && forall c :: 0 <= c < |st.outbox| ==>
                 r.outbox[c] == st.outbox[c] + (if Reached(st, st.order, sender, c) then [Text(Formatted(msg, sender))] else [])
  {
    forall c | 0 <= c < |st.outbox|
      ensures Deliver(st, st.order, sender, Formatted(msg, sender)).0.outbox[c]
           == st.outbox[c] + (if Reached(st, st.order, sender, c) then [Text(Formatted(msg, sender))] else [])
    {
      DeliverOutbox(st, st.order, sender, Formatted(msg, sender), c);
    }
  }

  /** The sender of a broadcast receives nothing from it. */
  lemma BroadcastSkipsSender(st: State, msg: string, name: string)
    requires Valid(st) && name in st.clients
    ensures Broadcast(st, msg, Some(name)).outbox[st.clients[name]] == st.outbox[st.clients[name]]
  {
    BroadcastReaches(st, msg, Some(name));
    assert !Reached(st, st.order, Some(name), st.clients[name]);
  }

  /**
   * After `broadcast`, exactly the users other than the sender whose send
   * failed are gone; every other entry keeps its connection, and the order
   * is the old order without them. The registry stays valid.
   */
  lemma BroadcastRemoves(st: State, msg: string, sender: Option<string>)
    requires Valid(st)
    ensures var r := Broadcast(st, msg, sender);
            && (forall u :: u in r.clients <==> u in st.clients && !Dropped(st, sender, u))
            && (forall u :: u in r.clients ==> r.clients[u] == st.clients[u])
            && r.order == Survivors(st, st.order, sender)
            && Valid(r)
  {
    var text := Formatted(msg, sender);
    var (delivered, failed) := Deliver(st, st.order, sender, text);
    DeliverFailed(st, st.order, sender, text);
    WithoutDropped(st, st.order, sender, failed);
    RemoveAllValid(delivered, failed);
  }
}

=== FILE: router.dfy ===
/**
 * What the server does with one session: `send_private`, `list_users`,
 * `forward_file`, `route_message`, the receive loop of `handle_client` and its
 * registration and teardown. Each is a function from the registry state and
 * the session's input stream to the new state and what is left of the stream.
 */
module Router {
  import opened Wrappers
  import opened Strings
  import opened Streams
  import Commands
  import opened Registry

  const Prompt := "Enter your username: "
  const Taken := "Username already taken. Disconnecting.\n"
  const Welcome := "Welcome! Commands: /pm, /list, /quit, /sendfile.\n"
  const Goodbye := "[SERVER] Goodbye!\n"

  function NotFound(target: string): string
  {
    "[ERROR] User '" + target + "' not found."
  }

  function PmFrom(sender: string, msg: string): string
  {
    "[PM from " + sender + "] " + msg
  }

  function PmTo(target: string, msg: string): string
  {
    "[PM to " + target + "] " + msg
  }

  function UserList(names: seq<string>): string
  {
    "[USERS ONLINE] " + Join(", ", names)
  }

  function FileSent(target: string): string
  {
    "[INFO] File sent to " + target
  }

  function ErrorReply(error: string): string
  {
    "[ERROR] " + error
  }

  function Joined(name: string): string
  {
    name + " has joined the chat."
  }

  function LeftChat(name: string): string
  {
    name + " has left the chat."
  }

  /** What `route_message` leads the session loop to do next; `Raised` is an exception out of it. */
  datatype Outcome = Continue | Quit | Raised

  datatype Routed = Routed(st: State, rest: Stream, outcome: Outcome)

  /** Why the receive loop of `handle_client` stopped. */
  datatype Reason = Disconnected | Quitted | Failed

  /**
   * How `handle_client` ended: the greeting could not be sent (the exception
   * leaves the thread), the name was taken, or the session ran and was torn down.
   */
  datatype Ending = Unreachable | Rejected(name: string) | Ended(name: string, reason: Reason)

  /** The state a running session keeps: its user is registered on a connection that accepts sends. */
  ghost predicate Session(st: State, name: string)
  {
    Valid(st) && name in st.clients && st.clients[name] !in st.dead
  }

  /**
   * `send_private(sender, target, msg)`: an unknown target gets the sender an
   * error; otherwise the target is sent the message, then the sender the
   * echo. `None` is the exception a dead target raises.
   */
  function SendPrivate(st: State, sender: string, target: string, msg: string): (r: Option<State>)
    requires Session(st, sender)
  {
    var own := st.clients[sender];
    if target !in st.clients then Some(Put(st, own, Text(NotFound(target))))
    else
      var (delivered, ok) := Send(st, st.clients[target], Text(PmFrom(sender, msg)));
      if ok then Some(Put(delivered, own, Text(PmTo(target, msg)))) else None
  }

  /** `list_users(requester)`: the registered names, in registration order, to the requester. */
  function ListUsers(st: State, requester: string): (r: State)
    requires Session(st, requester)
  {
    Put(st, st.clients[requester], Text(UserList(st.order)))
  }

  /**
   * `forward_file(sender, target, header, conn, filesize)`: an unknown target
   * gets the sender an error and no payload is read. Otherwise the receiver
   * is sent the raw header, then every chunk the relay loop reads, and the
   * sender a confirmation. `None` is the exception a dead receiver raises.
   */
  function ForwardFile(st: State, sender: string, target: string, header: string, s: Stream, filesize: int): (r: (Option<State>, Stream))
    requires Session(st, sender)
  {
    var own := st.clients[sender];
    if target !in st.clients then (Some(Put(st, own, Text(NotFound(target)))), s)
    else
      var receiver := st.clients[target];
      var (withHeader, ok) := Send(st, receiver, Text(header));
      if !ok then (None, s)
      else
        var (chunks, rest) := Pump(s, filesize);
        (Some(Put(PutAll(withHeader, receiver, DataFrames(chunks)), own, Text(FileSent(target)))), rest)
  }

  /**
   * `route_message(username, raw, conn)`: classify the text and act on it. A
   * file header is forwarded under the session's own name, with the raw,
   * unstripped text as the header. An exception changes nothing and reads
   * nothing, and every other outcome keeps the session's user registered.
   */
  function RouteMessage(st: State, name: string, raw: string, s: Stream): (r: Routed)
    requires Session(st, name)
  {
    Dispatch(st, name, raw, Commands.ParseCommand(raw), s)
  }

  /** The branches of `route_message` on the classified command. */
  function Dispatch(st: State, name: string, raw: string, parsed: Commands.Parsed, s: Stream): (r: Routed)
    requires Session(st, name)
  {
    match parsed
    case Raises => Routed(st, s, Raised)
    case Parsed(cmd) =>
      match cmd
      case PrivateMessage(target, msg) =>
        (match SendPrivate(st, name, target, msg)
         case None => Routed(st, s, Raised)
         case Some(next) => Routed(next, s, Continue))
      case Broadcast(msg) =>
        Routed(Broadcast(st, msg, Some(name)), s, Continue)
      case List => Routed(ListUsers(st, name), s, Continue)
      case Quit => Routed(st, s, Quit)
      case Invalid(error) => Routed(Put(st, st.clients[name], Text(ErrorReply(error))), s, Continue)
      case FileHeader(_, target, _, size) =>
        match ForwardFile(st, name, target, raw, s, size)
        case (None, _) => Routed(st, s, Raised)
        case (Some(next), rest) => Routed(next, rest, Continue)
  }

  /** Two states with the same registry and dead set, and as many connections. */
  predicate SameRegistry(a: State, b: State)
  {
    a.clients == b.clients && a.order == b.order && a.dead == b.dead && |a.outbox| == |b.outbox|
  }

  /** Every user registered in `b` was registered in `a`, on the same connection. */
  ghost predicate Shrinks(a: State, b: State)
  {
    forall u :: u in b.clients ==> u in a.clients && b.clients[u] == a.clients[u]
  }

  /**
   * `send_private`: an unknown target gets only the sender the not-found
   * error; a dead target raises; otherwise the target receives `[PM from
   * sender] msg` and then the sender `[PM to target] msg`, and no one else
   * receives anything. The registry is never changed.
   */
  lemma SendPrivateEffect(st: State, sender: string, target: string, msg: string)
    requires Session(st, sender)
    ensures var r := SendPrivate(st, sender, target, msg);
            var own := st.clients[sender];
            && (target !in st.clients ==>
                  r.Some? && SameRegistry(st, r.value)
                  && forall c :: 0 <= c < |st.outbox| ==>
                       r.value.outbox[c] == st.outbox[c] + (if c == own then [Text(NotFound(target))] else []))
            && (target in st.clients && st.clients[target] in st.dead ==> r.None?)
            && (target in st.clients && st.clients[target] !in st.dead ==>
                  r.Some? && SameRegistry(st, r.value)
                  && forall c :: 0 <= c < |st.outbox| ==>
                       r.value.outbox[c] == st.outbox[c]
                                            + (if c == st.clients[target] then [Text(PmFrom(sender, msg))] else [])
                                            + (if c == own then [Text(PmTo(target, msg))] else []))
  {
  }

  /** `list_users`: only the requester receives the list of every registered name, in registration order. */
  lemma ListUsersEffect(st: State, requester: string)
    requires Session(st, requester)
    ensures var r := ListUsers(st, requester);
            && SameRegistry(st, r)
            && forall c :: 0 <= c < |st.outbox| ==>
                 r.outbox[c] == st.outbox[c]
                                + (if c == st.clients[requester] then [Text("[USERS ONLINE] " + Join(", ", st.order))] else [])
  {
  }

  /**
   * `forward_file` to an unknown target gets only the sender the not-found
   * error and reads no payload byte; to a dead receiver it raises before any read.
   */
  lemma ForwardFileRefused(st: State, sender: string, target: string, header: string, s: Stream, filesize: int)
    requires Session(st, sender)
    ensures var (r, rest) := ForwardFile(st, sender, target, header, s, filesize);
            && (target !in st.clients ==>
                  r.Some? && rest == s && SameRegistry(st, r.value)
                  && forall c :: 0 <= c < |st.outbox| ==>
                       r.value.outbox[c] == st.outbox[c] + (if c == st.clients[sender] then [Text(NotFound(target))] else []))
            && (target in st.clients && st.clients[target] in st.dead ==> r.None? && rest == s)
  {
  }

  /**
   * `forward_file` to a live receiver: it gets the raw header, then one data
   * frame per chunk the relay loop reads, and the sender the confirmation;
   * the stream is left where the relay loop stopped. Which bytes those chunks
   * hold is what `Pump` and `PumpPrefix` state.
   */
  lemma ForwardFileRelays(st: State, sender: string, target: string, header: string, s: Stream, filesize: int)
    requires Session(st, sender) && target in st.clients && st.clients[target] !in st.dead
    ensures var (r, rest) := ForwardFile(st, sender, target, header, s, filesize);
            var chunks := Pump(s, filesize).0;
            && r.Some? && SameRegistry(st, r.value) && rest == Pump(s, filesize).1
            && forall c :: 0 <= c < |st.outbox| ==>
                 r.value.outbox[c] == st.outbox[c]
                                      + (if c == st.clients[target] then [Text(header)] + DataFrames(chunks) else [])
                                      + (if c == st.clients[sender] then [Text(FileSent(target))] else [])
  {
    var own, receiver := st.clients[sender], st.clients[target];
    var (chunks, rest) := Pump(s, filesize);
    var r := Put(PutAll(Put(st, receiver, Text(header)), receiver, DataFrames(chunks)), own, Text(FileSent(target)));
    assert ForwardFile(st, sender, target, header, s, filesize) == (Some(r), rest);
    RelayOutbox(st, receiver, own, [Text(header)], DataFrames(chunks), Text(FileSent(target)));
  }

  /**
   * A file header line goes to its live receiver exactly as it came in, not
   * stripped, followed by one data frame per chunk the relay loop read.
   */
  lemma HeaderRelaysRaw(st: State, name: string, raw: string, s: Stream)
    requires Session(st, name)
    requires Commands.ParseCommand(raw).Parsed? && Commands.ParseCommand(raw).command.FileHeader?
    requires var c := Commands.ParseCommand(raw).command; c.target in st.clients && st.clients[c.target] !in st.dead
    ensures var c := Commands.ParseCommand(raw).command;
            var r := RouteMessage(st, name, raw, s);
            var receiver := st.clients[c.target];
            && r.outcome == Continue && r.rest == Pump(s, c.filesize).1
            && st.outbox[receiver] + [Text(raw)] + DataFrames(Pump(s, c.filesize).0) <= r.st.outbox[receiver]
  {
    var c := Commands.ParseCommand(raw).command;
    ForwardFileRelays(st, name, c.target, raw, s, c.filesize);
  }

  /** Frames for one connection, then more frames for it, then one frame for another (or the same) connection. */
  lemma RelayOutbox(st: State, receiver: Conn, own: Conn, first: seq<Frame>, more: seq<Frame>, last: Frame)
    requires receiver < |st.outbox| && own < |st.outbox| && |first| == 1
    ensures var r := Put(PutAll(Put(st, receiver, first[0]), receiver, more), own, last);
            && r.clients == st.clients && r.order == st.order && r.dead == st.dead
            && |r.outbox| == |st.outbox|
            && forall c :: 0 <= c < |st.outbox| ==>
                 r.outbox[c] == st.outbox[c]
                                + (if c == receiver then first + more else [])
                                + (if c == own then [last] else [])
  {
    var withData := PutAll(Put(st, receiver, first[0]), receiver, more);
    var r := Put(withData, own, last);
    forall c | 0 <= c < |st.outbox|
      ensures r.outbox[c] == st.outbox[c]
                             + (if c == receiver then first + more else [])
                             + (if c == own then [last] else [])
    {
      if c == receiver {
        assert first == [first[0]];
        assert withData.outbox[c] == st.outbox[c] + first + more;
      } else {
        assert withData.outbox[c] == st.outbox[c];
      }
    }
  }

  /**
   * What one routed message may do to a session: an exception changes nothing
   * and reads nothing; every other outcome keeps the session's user registered
   * on the same open connection. Users are never added, the dead set and the
   * connections stay, and the stream is never rewound.
   */
  ghost predicate Kept(st: State, name: string, s: Stream, r: Routed)
    requires Session(st, name)
  {
    && (r.outcome == Raised ==> r.st == st && r.rest == s)
    && (r.outcome != Raised ==> Session(r.st, name) && r.st.clients[name] == st.clients[name])
    && Shrinks(st, r.st) && r.st.dead == st.dead && |r.st.outbox| == |st.outbox|
    && Bytes(r.rest) <= Bytes(s)
  }

  /** `route_message` keeps the session, as `Kept` states, whatever the command. */
  lemma RouteKeeps(st: State, name: string, raw: string, parsed: Commands.Parsed, s: Stream)
    requires Session(st, name)
    ensures Kept(st, name, s, Dispatch(st, name, raw, parsed, s))
  {
    var r := Dispatch(st, name, raw, parsed, s);
    match parsed
    case Raises =>
      assert r == Routed(st, s, Raised);
    case Parsed(cmd) =>
      match cmd
      case PrivateMessage(target, msg) =>
        var p := SendPrivate(st, name, target, msg);
        PrivateKeeps(st, name, target, msg, s);
        assert r == if p.Some? then Routed(p.value, s, Continue) else Routed(st, s, Raised);
      case Broadcast(msg) =>
        BroadcastKeeps(st, name, msg);
        assert r == Routed(Broadcast(st, msg, Some(name)), s, Continue);
      case List =>
        ListUsersEffect(st, name);
        SameRegistryKeeps(st, ListUsers(st, name), name);
        assert r == Routed(ListUsers(st, name), s, Continue);
      case Quit =>
        assert r == Routed(st, s, Quit);
      case Invalid(error) =>
        var q := Put(st, st.clients[name], Text(ErrorReply(error)));
        SameRegistryKeeps(st, q, name);
        assert r == Routed(q, s, Continue);
      case FileHeader(_, target, _, size) =>
        var (f, rest) := ForwardFile(st, name, target, raw, s, size);
        HeaderKeeps(st, name, target, raw, s, size);
        assert r == if f.Some? then Routed(f.value, rest, Continue) else Routed(st, s, Raised);
  }

  /** The private message branch of `route_message` keeps the session. */
  lemma PrivateKeeps(st: State, name: string, target: string, msg: string, s: Stream)
    requires Session(st, name)
    ensures var p := SendPrivate(st, name, target, msg);
            Kept(st, name, s, if p.Some? then Routed(p.value, s, Continue) else Routed(st, s, Raised))
  {
    SendPrivateEffect(st, name, target, msg);
    var p := SendPrivate(st, name, target, msg);
    if p.Some? {
      SameRegistryKeeps(st, p.value, name);
    }
  }

  /** The file header branch of `route_message` keeps the session. */
  lemma HeaderKeeps(st: State, name: string, target: string, raw: string, s: Stream, size: int)
    requires Session(st, name)
    ensures var (f, rest) := ForwardFile(st, name, target, raw, s, size);
            Kept(st, name, s, if f.Some? then Routed(f.value, rest, Continue) else Routed(st, s, Raised))
  {
    ForwardKeeps(st, name, target, raw, s, size);
    var f := ForwardFile(st, name, target, raw, s, size).0;
    if f.Some? {
      SameRegistryKeeps(st, f.value, name);
    }
  }

  /** A broadcast from the session's user keeps it, as `Kept` states. */
  lemma BroadcastKeeps(st: State, name: string, msg: string)
    requires Session(st, name)
    ensures var r := Broadcast(st, msg, Some(name));
            Session(r, name) && r.clients[name] == st.clients[name] && Shrinks(st, r)
            && r.dead == st.dead && |r.outbox| == |st.outbox|
  {
    BroadcastRemoves(st, msg, Some(name));
    BroadcastReaches(st, msg, Some(name));
  }

  /** `forward_file` never changes the registry, and it reads nothing from the stream when it raises. */
  lemma ForwardKeeps(st: State, name: string, target: string, raw: string, s: Stream, size: int)
    requires Session(st, name)
    ensures var (r, rest) := ForwardFile(st, name, target, raw, s, size);
            && (r.None? ==> rest == s)
            && (r.Some? ==> SameRegistry(st, r.value))
            && Bytes(rest) <= Bytes(s)
  {
    ForwardFileRefused(st, name, target, raw, s, size);
    if target in st.clients && st.clients[target] !in st.dead {
      ForwardFileRelays(st, name, target, raw, s, size);
    }
  }

  lemma SameRegistryKeeps(a: State, b: State, name: string)
    requires SameRegistry(a, b) && Session(a, name)
    ensures Session(b, name)
  {
  }

  /**
   * The receive loop of `handle_client`: read up to 1024 bytes, stop on an
   * empty read, route the text, and on `/quit` say goodbye and stop. An
   * exception from routing also stops it.
   */
  function Serve(st: State, name: string, s: Stream): (r: (State, Stream, Reason))
    requires Session(st, name)
    decreases Bytes(s)
  {
    var (unit, s1) := Recv(s, LineSize);
    if unit == [] then (st, s1, Disconnected)
    else
      var routed := RouteMessage(st, name, Decode(unit), s1);
      RouteKeeps(st, name, Decode(unit), Commands.ParseCommand(Decode(unit)), s1);
      match routed.outcome
      case Raised => (routed.st, routed.rest, Failed)
      case Quit => (Put(routed.st, st.clients[name], Text(Goodbye)), routed.rest, Quitted)
      case Continue => Serve(routed.st, name, routed.rest)
  }

  function Last(frames: seq<Frame>): Frame
    requires frames != []
  {
    frames[|frames| - 1]
  }

  /**
   * The receive loop only ever drops users, it stops on an empty read only
   * once the stream has nothing more to give, and on `/quit` the last frame
   * the session's connection gets is the goodbye.
   */
  lemma ServeEnds(st: State, name: string, s: Stream)
    requires Session(st, name)
    ensures var (r, rest, reason) := Serve(st, name, s);
            var own := st.clients[name];
            && Session(r, name) && r.clients[name] == own && Shrinks(st, r)
            && r.dead == st.dead && |r.outbox| == |st.outbox| && Bytes(rest) <= Bytes(s)
            && (reason == Disconnected ==> Available(rest) == [])
            && (reason == Quitted ==> r.outbox[own] != [] && Last(r.outbox[own]) == Text(Goodbye))
  {
    ServeKeeps(st, name, s);
    ServeStops(st, name, s);
  }

  /** The registry part of `ServeEnds`. */
  lemma {:induction false} ServeKeeps(st: State, name: string, s: Stream)
    requires Session(st, name)
    ensures var (r, rest, reason) := Serve(st, name, s);
            && Session(r, name) && r.clients[name] == st.clients[name] && Shrinks(st, r)
            && r.dead == st.dead && |r.outbox| == |st.outbox| && Bytes(rest) <= Bytes(s)
    decreases Bytes(s)
  {
    var (unit, s1) := Recv(s, LineSize);
    if unit != [] {
      var raw := Decode(unit);
      RouteKeeps(st, name, raw, Commands.ParseCommand(raw), s1);
      var routed := RouteMessage(st, name, raw, s1);
      match routed.outcome
      case Raised =>
      case Quit =>
        SameRegistryKeeps(routed.st, Put(routed.st, st.clients[name], Text(Goodbye)), name);
      case Continue =>
        ServeKeeps(routed.st, name, routed.rest);
        assert Serve(st, name, s) == Serve(routed.st, name, routed.rest);
        ShrinksTrans(st, routed.st, Serve(st, name, s).0);
    }
  }

  /** The stopping part of `ServeEnds`: why the loop stopped is visible in what it leaves. */
  lemma {:induction false} ServeStops(st: State, name: string, s: Stream)
    requires Session(st, name)
    ensures var (r, rest, reason) := Serve(st, name, s);
            var own := st.clients[name];
            && (reason == Disconnected ==> Available(rest) == [])
            && (reason == Quitted ==> own < |r.outbox| && r.outbox[own] != [] && Last(r.outbox[own]) == Text(Goodbye))
    decreases Bytes(s)
  {
    var (unit, s1) := Recv(s, LineSize);
    if unit != [] {
      var raw := Decode(unit);
      RouteKeeps(st, name, raw, Commands.ParseCommand(raw), s1);
      var routed := RouteMessage(st, name, raw, s1);
      match routed.outcome
      case Raised =>
        assert Serve(st, name, s).2 == Failed;
      case Quit =>
        var own := st.clients[name];
        assert Serve(st, name, s) == (Put(routed.st, own, Text(Goodbye)), routed.rest, Quitted);
        PutLast(routed.st, own, Text(Goodbye));
      case Continue =>
        ServeStops(routed.st, name, routed.rest);
        assert Serve(st, name, s) == Serve(routed.st, name, routed.rest);
    } else {
      assert Serve(st, name, s) == (st, s1, Disconnected);
    }
  }

  /** The frame just put on a connection is its newest. */
  lemma PutLast(st: State, c: Conn, f: Frame)
    requires c < |st.outbox|
    ensures var q := Put(st, c, f);
            c < |q.outbox| && q.outbox[c] != [] && Last(q.outbox[c]) == f
  {
    var q := Put(st, c, f);
    assert q.outbox[c] == st.outbox[c] + [f];
  }

  lemma ShrinksTrans(a: State, b: State, c: State)
    requires Shrinks(a, b) && Shrinks(b, c)
    ensures Shrinks(a, c)
  {
  }

  /** The teardown: `del clients[username]` if present, then the leave notice to everyone left. */
  function Leave(st: State, name: string): (r: State)
    requires Valid(st)
  {
    RemoveAllValid(st, [name]);
    Broadcast(Unregister(st, name), LeftChat(name), None)
  }

  /**
   * `handle_client(conn, addr)` on a new connection: prompt, read the name
   * (decoded and stripped), reject a taken name, otherwise register it,
   * announce it to everyone, welcome it, run the receive loop, and tear down.
   */
  function HandleClient(st: State, conn: Conn, s: Stream): (r: (State, Stream, Ending))
    requires Valid(st) && conn < |st.outbox|
    requires forall u :: u in st.clients ==> st.clients[u] != conn
  {
    if conn in st.dead then (st, s, Unreachable)
    else
      var greeted := Put(st, conn, Text(Prompt));
      var (unit, s1) := Recv(s, LineSize);
      var name := Strip(Decode(unit));
      if name in greeted.clients then (Put(greeted, conn, Text(Taken)), s1, Rejected(name))
      else
        var (r, s2, reason) := Attend(greeted, name, conn, s1);
        (r, s2, Ended(name, reason))
  }

  /** An accepted name: register it on the connection, announce the join, send the welcome. */
  function Admit(st: State, name: string, conn: Conn): (r: State)
    requires Valid(st) && name !in st.clients && conn < |st.outbox| && conn !in st.dead
    requires forall u :: u in st.clients ==> st.clients[u] != conn
  {
    RegisterValid(st, name, conn);
    var registered := Register(st, name, conn);
    BroadcastRemoves(registered, Joined(name), None);
    var joined := Broadcast(registered, Joined(name), None);
    BroadcastReaches(registered, Joined(name), None);
    Put(joined, conn, Text(Welcome))
  }

  /** The part of `handle_client` after the name is accepted: admit, serve, tear down. */
  function Attend(st: State, name: string, conn: Conn, s: Stream): (r: (State, Stream, Reason))
    requires Valid(st) && name !in st.clients && conn < |st.outbox| && conn !in st.dead
    requires forall u :: u in st.clients ==> st.clients[u] != conn
  {
    var welcomed := Admit(st, name, conn);
    Admitted(st, name, conn);
    var (served, s2, reason) := Serve(welcomed, name, s);
    ServeEnds(welcomed, name, s);
    (Leave(served, name), s2, reason)
  }

  /** After admission the user holds a live session on its connection, and no one else was added. */
  lemma Admitted(st: State, name: string, conn: Conn)
    requires Valid(st) && name !in st.clients && conn < |st.outbox| && conn !in st.dead
    requires forall u :: u in st.clients ==> st.clients[u] != conn
    ensures var r := Admit(st, name, conn);
            && Session(r, name) && r.clients[name] == conn && |r.outbox| == |st.outbox|
            && (forall u :: u in r.clients && u != name ==> u in st.clients && r.clients[u] == st.clients[u])
  {
    RegisterValid(st, name, conn);
    var registered := Register(st, name, conn);
    BroadcastRemoves(registered, Joined(name), None);
    BroadcastReaches(registered, Joined(name), None);
    assert !Dropped(registered, None, name);
  }

  /**
   * The teardown removes the user, if still registered, and every user
   * still registered afterwards has the leave notice as its newest frame.
   */
  lemma LeaveNotice(st: State, name: string)
    requires Valid(st)
    ensures var r := Leave(st, name);
            && name !in r.clients && Shrinks(st, r) && Valid(r) && |r.outbox| == |st.outbox|
            && (forall u :: u in r.clients ==>
                  r.outbox[r.clients[u]] == st.outbox[r.clients[u]] + [Text(LeftChat(name))])
  {
    LeaveKeeps(st, name);
    LeaveReaches(st, name);
  }

  /** The registry part of `LeaveNotice`. */
  lemma LeaveKeeps(st: State, name: string)
    requires Valid(st)
    ensures var r := Leave(st, name);
            name !in r.clients && Shrinks(st, r) && Valid(r) && |r.outbox| == |st.outbox|
  {
    RemoveAllValid(st, [name]);
    var gone := Unregister(st, name);
    assert gone.outbox == st.outbox && Shrinks(st, gone);
    BroadcastRemoves(gone, LeftChat(name), None);
  }

  /** The notice part of `LeaveNotice`. */
  lemma LeaveReaches(st: State, name: string)
    requires Valid(st)
    ensures var r := Leave(st, name);
            && Valid(r) && |r.outbox| == |st.outbox|
            && (forall u :: u in r.clients ==>
                  r.outbox[r.clients[u]] == st.outbox[r.clients[u]] + [Text(LeftChat(name))])
  {
    LeaveKeeps(st, name);
    RemoveAllValid(st, [name]);
    var gone := Unregister(st, name);
    assert gone.outbox == st.outbox;
    BroadcastReaches(gone, LeftChat(name), None);
    BroadcastRemoves(gone, LeftChat(name), None);
    var r := Leave(st, name);
    forall u | u in r.clients
      ensures r.outbox[r.clients[u]] == st.outbox[r.clients[u]] + [Text(LeftChat(name))]
    {
      assert u in gone.order;
      assert Reached(gone, gone.order, None, gone.clients[u]);
    }
  }

  /** After the teardown the leave notice is the newest frame of every user still registered. */
  lemma LeaveLast(st: State, name: string)
    requires Valid(st)
    ensures var r := Leave(st, name);
            && Valid(r)
            && (forall u :: u in r.clients ==> r.outbox[r.clients[u]] != [] && Last(r.outbox[r.clients[u]]) == Text(LeftChat(name)))
  {
    LeaveReaches(st, name);
  }

  /** The leaving user's own connection gets nothing from the teardown. */
  lemma LeaveSilent(st: State, name: string)
    requires Valid(st) && name in st.clients
    ensures Leave(st, name).outbox[st.clients[name]] == st.outbox[st.clients[name]]
  {
    RemoveAllValid(st, [name]);
    var gone := Unregister(st, name);
    assert gone.outbox == st.outbox;
    BroadcastReaches(gone, LeftChat(name), None);
    var own := st.clients[name];
    forall v | v in gone.clients
      ensures gone.clients[v] != own
    {
      assert v in st.clients && v != name;
    }
    assert !Reached(gone, gone.order, None, own);
  }

  /**
   * A greeting that cannot be sent ends `handle_client` before anything else
   * happens; a taken name gets the connection the prompt and the rejection
   * and nothing else: the registry is untouched and no notice is sent.
   */
  lemma Admission(st: State, conn: Conn, s: Stream)
    requires Valid(st) && conn < |st.outbox|
    requires forall u :: u in st.clients ==> st.clients[u] != conn
    ensures var (r, rest, ending) := HandleClient(st, conn, s);
            && (ending == Unreachable <==> conn in st.dead)
            && (ending == Unreachable ==> r == st && rest == s)
            && (ending.Rejected? ==>
                  && ending.name == Strip(Decode(Recv(s, LineSize).0)) && ending.name in st.clients
                  && r.clients == st.clients && r.order == st.order && r.dead == st.dead
                  && |r.outbox| == |st.outbox|
                  && forall c :: 0 <= c < |st.outbox| ==>
                       r.outbox[c] == st.outbox[c] + (if c == conn then [Text(Prompt), Text(Taken)] else []))
  {
    if conn in st.dead {
      assert HandleClient(st, conn, s) == (st, s, Unreachable);
    } else {
      var greeted := Put(st, conn, Text(Prompt));
      var (unit, s1) := Recv(s, LineSize);
      var name := Strip(Decode(unit));
      if name in greeted.clients {
        var r := Put(greeted, conn, Text(Taken));
        assert HandleClient(st, conn, s) == (r, s1, Rejected(name));
        TwoFrames(st, conn, Text(Prompt), Text(Taken));
      } else {
        assert HandleClient(st, conn, s).2.Ended?;
      }
    }
  }

  /** Two frames put on one connection, one after the other. */
  lemma TwoFrames(st: State, conn: Conn, f: Frame, g: Frame)
    requires conn < |st.outbox|
    ensures var r := Put(Put(st, conn, f), conn, g);
            && r.clients == st.clients && r.order == st.order && r.dead == st.dead
            && |r.outbox| == |st.outbox|
            && forall c :: 0 <= c < |st.outbox| ==> r.outbox[c] == st.outbox[c] + (if c == conn then [f, g] else [])
  {
    var r := Put(Put(st, conn, f), conn, g);
    assert r.outbox[conn] == st.outbox[conn] + [f] + [g];
    assert st.outbox[conn] + [f] + [g] == st.outbox[conn] + [f, g];
  }

  /**
   * The join notice is broadcast with no sender, so every registered user
   * whose connection accepts it, the newly registered user included,
   * receives exactly `<name> has joined the chat.` once.
   */
  lemma JoinNotice(st: State, name: string)
    requires Valid(st) && name in st.clients
    ensures var r := Broadcast(st, Joined(name), None);
            forall u :: u in st.clients && st.clients[u] !in st.dead ==>
              r.outbox[st.clients[u]] == st.outbox[st.clients[u]] + [Text(Joined(name))]
  {
    BroadcastReaches(st, Joined(name), None);
    forall u | u in st.clients && st.clients[u] !in st.dead
      ensures Reached(st, st.order, None, st.clients[u])
    {
      assert u in st.order;
    }
  }

  /**
   * `handle_client` admitting a name: the new user's connection gets the join
   * notice and then the welcome, and every live user already registered gets
   * the join notice once.
   */
  lemma AdmitNotices(st: State, name: string, conn: Conn)
    requires Valid(st) && name !in st.clients && conn < |st.outbox| && conn !in st.dead
    requires forall u :: u in st.clients ==> st.clients[u] != conn
    ensures var r := Admit(st, name, conn);
            && r.outbox[conn] == st.outbox[conn] + [Text(Joined(name)), Text(Welcome)]
            && forall u :: u in st.clients && st.clients[u] !in st.dead ==>
                 r.outbox[st.clients[u]] == st.outbox[st.clients[u]] + [Text(Joined(name))]
  {
    RegisterValid(st, name, conn);
    var registered := Register(st, name, conn);
    var joined := Broadcast(registered, Joined(name), None);
    assert Admit(st, name, conn) == Put(joined, conn, Text(Welcome));
    JoinNotice(registered, name);
    assert joined.outbox[conn] == st.outbox[conn] + [Text(Joined(name))] by {
      assert registered.clients[name] == conn;
    }
    forall u | u in st.clients && st.clients[u] !in st.dead
      ensures joined.outbox[st.clients[u]] == st.outbox[st.clients[u]] + [Text(Joined(name))]
    {
      assert registered.clients[u] == st.clients[u];
    }
  }

  /**
   * A session that ran ends with its user gone from the registry, no user
   * added, and the leave notice as the newest frame of every user still
   * registered. After `/quit` the last frame of the session's own connection
   * is the goodbye; after a disconnect the stream has nothing more to give.
   */
  lemma SessionEnd(st: State, conn: Conn, s: Stream)
    requires Valid(st) && conn < |st.outbox|
    requires forall u :: u in st.clients ==> st.clients[u] != conn
    ensures var (r, rest, ending) := HandleClient(st, conn, s);
            ending.Ended? ==>
              && ending.name !in r.clients && Shrinks(st, r) && Valid(r) && |r.outbox| == |st.outbox|
              && (forall u :: u in r.clients ==> r.outbox[r.clients[u]] != [] && Last(r.outbox[r.clients[u]]) == Text(LeftChat(ending.name)))
              && (ending.reason == Quitted ==> r.outbox[conn] != [] && Last(r.outbox[conn]) == Text(Goodbye))
              && (ending.reason == Disconnected ==> Available(rest) == [])
  {
    if conn !in st.dead {
      var greeted := Put(st, conn, Text(Prompt));
      var (unit, s1) := Recv(s, LineSize);
      var name := Strip(Decode(unit));
      if name !in greeted.clients {
        var (r, rest, reason) := Attend(greeted, name, conn, s1);
        AttendEnds(greeted, name, conn, s1, r, rest, reason);
      }
    }
  }

  /** `SessionEnd` for the part after the name is accepted. */
  lemma AttendEnds(st: State, name: string, conn: Conn, s: Stream, r: State, rest: Stream, reason: Reason)
    requires Valid(st) && name !in st.clients && conn < |st.outbox| && conn !in st.dead
    requires forall u :: u in st.clients ==> st.clients[u] != conn
    requires (r, rest, reason) == Attend(st, name, conn, s)
    ensures name !in r.clients && Shrinks(st, r) && Valid(r) && |r.outbox| == |st.outbox|
    ensures forall u :: u in r.clients ==> r.outbox[r.clients[u]] != [] && Last(r.outbox[r.clients[u]]) == Text(LeftChat(name))
    ensures reason == Quitted ==> r.outbox[conn] != [] && Last(r.outbox[conn]) == Text(Goodbye)
    ensures reason == Disconnected ==> Available(rest) == []
  {
    var welcomed := Admit(st, name, conn);
    Admitted(st, name, conn);
    var (served, s2, why) := Serve(welcomed, name, s);
    ServeEnds(welcomed, name, s);
    ServedEnds(welcomed, name, served, s2, why);
    assert r == Leave(served, name) && rest == s2 && reason == why;
    forall u | u in r.clients
      ensures u in st.clients && r.clients[u] == st.clients[u]
    {
      assert u in welcomed.clients && u != name;
    }
  }

  /** The teardown of an admitted user after a receive loop that ended as `ServeEnds` states. */
  lemma ServedEnds(welcomed: State, name: string, served: State, rest: Stream, reason: Reason)
    requires Session(welcomed, name)
    requires Session(served, name) && served.clients[name] == welcomed.clients[name]
    requires Shrinks(welcomed, served) && |served.outbox| == |welcomed.outbox|
    requires reason == Disconnected ==> Available(rest) == []
    requires reason == Quitted ==> var own := welcomed.clients[name];
               served.outbox[own] != [] && Last(served.outbox[own]) == Text(Goodbye)
    ensures var r := Leave(served, name);
            var own := welcomed.clients[name];
            && name !in r.clients && Shrinks(welcomed, r) && Valid(r) && |r.outbox| == |welcomed.outbox|
            && (forall u :: u in r.clients ==> r.outbox[r.clients[u]] != [] && Last(r.outbox[r.clients[u]]) == Text(LeftChat(name)))
            && (reason == Quitted ==> r.outbox[own] != [] && Last(r.outbox[own]) == Text(Goodbye))
            && (reason == Disconnected ==> Available(rest) == [])
  {
    LeaveKeeps(served, name);
    LeaveLast(served, name);
    LeaveSilent(served, name);
    ShrinksTrans(welcomed, served, Leave(served, name));
  }
}

=== FILE: server.dfy ===
/**
 * The server as it runs: the `clients` dict (with its insertion order) and
 * every connection's outbox are fields that its operations update in place.
 * Each operation is proved to leave exactly the state, and consume exactly
 * the input, that the matching function of `Registry` or `Router` describes,
 * so what is proved about those functions holds of these methods.
 */
module Server {
  import opened Wrappers
  import opened Strings
  import opened Streams
  import opened Registry
  import Commands
  import Router

  class Relay {
    /** `clients`: user name to connection. */
    var clients: map<string, Conn>
    /** The insertion order of `clients`. */
    var order: seq<string>
    /** The frames written to each connection so far. */
    var outbox: seq<seq<Frame>>
    /** The connections whose sends raise. */
    const dead: set<Conn>

    function Abs(): State
      reads this
    {
      State(clients, order, outbox, dead)
    }

    /** An empty registry over `conns` connections, none written to yet. */
    constructor (conns: nat, dead: set<Conn>)
      ensures Abs() == State(map[], [], seq(conns, _ => []), dead)
      ensures Valid(Abs())
    {
      clients := map[];
      order := [];
      outbox := seq(conns, _ => []);
      this.dead := dead;
    }

    /** `sendall` on a connection that accepts it. */
    method Write(c: Conn, f: Frame)
      requires c < |outbox| && c !in dead
      modifies this
      ensures Abs() == Put(old(Abs()), c, f)
    {
      outbox := outbox[c := outbox[c] + [f]];
    }

    /** `sendall` on any connection: false is the exception a dead one raises. */
    method TrySend(c: Conn, f: Frame) returns (ok: bool)
      requires c < |outbox|
      modifies this
      ensures (Abs(), ok) == Send(old(Abs()), c, f)
    {
      if c in dead {
        ok := false;
      } else {
        Write(c, f);
        ok := true;
      }
    }

    /** `clients[name] = c` for a name not registered yet. */
    method Register(name: string, c: Conn)
      requires name !in clients
      modifies this
      ensures Abs() == Registry.Register(old(Abs()), name, c)
    {
      clients := clients[name := c];
      order := order + [name];
    }

    /** `del clients[name]`. */
    method Remove(name: string)
      modifies this
      ensures Abs() == RemoveAll(old(Abs()), [name])
    {
      clients := map u | u in clients && u != name :: clients[u];
      order := Without(order, [name]);
    }

    /**
     * `broadcast(msg, sender)`: send to every registered user but the sender,
     * in registration order, collecting the users whose send fails; then
     * delete those users.
     */
    method Broadcast(msg: string, sender: Option<string>)
      requires Valid(Abs())
      modifies this
      ensures Abs() == Registry.Broadcast(old(Abs()), msg, sender)
    {
      var failed := DeliverAll(order, sender, Formatted(msg, sender));
      RemoveEach(failed);
    }

    /** The first loop of `broadcast`: send `text` to each of `users` but the sender, collecting the failures. */
    method DeliverAll(users: seq<string>, sender: Option<string>, text: string) returns (failed: seq<string>)
      requires forall u :: u in users ==> u in clients && clients[u] < |outbox|
      modifies this
      ensures (Abs(), failed) == Deliver(old(Abs()), users, sender, text)
    {
      ghost var goal := Deliver(Abs(), users, sender, text);
      failed := [];
      assert failed + goal.1 == goal.1;
      var todo := users;
      while todo != []
        invariant clients == old(clients) && |outbox| == |old(outbox)|
        invariant forall u :: u in todo ==> u in clients && clients[u] < |outbox|
        invariant var d := Deliver(Abs(), todo, sender, text); (d.0, failed + d.1) == goal
        decreases |todo|
      {
        var user := todo[0];
        DeliverTurn(Abs(), todo, sender, text, failed, goal);
        if sender != Some(user) {
          var ok := TrySend(clients[user], Text(text));
          if !ok {
            failed := failed + [user];
          }
        }
        todo := todo[1..];
      }
      assert Deliver(Abs(), [], sender, text) == (Abs(), []);
      assert failed + [] == failed;
    }

    /** The second loop of `broadcast`: `del clients[user]` for each collected user. */
    method RemoveEach(gone: seq<string>)
      modifies this
      ensures Abs() == RemoveAll(old(Abs()), gone)
    {
      ghost var start := Abs();
      RemoveNothing(start);
      assert gone[..0] == [];
      for j := 0 to |gone|
        invariant Abs() == RemoveAll(start, gone[..j])
      {
        RemoveAllStep(start, gone[..j], gone[j]);
        assert gone[..j + 1] == gone[..j] + [gone[j]];
        Remove(gone[j]);
      }
      assert gone[..|gone|] == gone;
    }

    /**
     * `send_private(sender, target, msg)`; false is the exception a dead
     * target raises, which leaves everything as it was.
     */
    method SendPrivate(sender: string, target: string, msg: string) returns (ok: bool)
      requires Router.Session(Abs(), sender)
      modifies this
      ensures ok == Router.SendPrivate(old(Abs()), sender, target, msg).Some?
      ensures ok ==> Abs() == Router.SendPrivate(old(Abs()), sender, target, msg).value
      ensures !ok ==> Abs() == old(Abs())
    {
      if target !in clients {
        Write(clients[sender], Text(Router.NotFound(target)));
        return true;
      }
      ok := TrySend(clients[target], Text(Router.PmFrom(sender, msg)));
      if ok {
        Write(clients[sender], Text(Router.PmTo(target, msg)));
      }
    }

    /** `list_users(requester)`. */
    method ListUsers(requester: string)
      requires Router.Session(Abs(), requester)
      modifies this
      ensures Abs() == Router.ListUsers(old(Abs()), requester)
    {
      Write(clients[requester], Text(Router.UserList(order)));
    }

    /**
     * `forward_file(sender, target, header, conn, filesize)`, reading the
     * payload from `s`; false is the exception a dead receiver raises.
     */
    method ForwardFile(sender: string, target: string, header: string, s: Stream, filesize: int)
      returns (ok: bool, rest: Stream)
      requires Router.Session(Abs(), sender)
      modifies this
      ensures ok == Router.ForwardFile(old(Abs()), sender, target, header, s, filesize).0.Some?
      ensures rest == Router.ForwardFile(old(Abs()), sender, target, header, s, filesize).1
      ensures ok ==> Abs() == Router.ForwardFile(old(Abs()), sender, target, header, s, filesize).0.value
      ensures !ok ==> Abs() == old(Abs())
    {
      rest := s;
      if target !in clients {
        Write(clients[sender], Text(Router.NotFound(target)));
        return true, rest;
      }
      var receiver := clients[target];
      ok := TrySend(receiver, Text(header));
      if !ok {
        return;
      }
      rest := RelayPayload(receiver, s, filesize);
      Write(clients[sender], Text(Router.FileSent(target)));
    }

    /**
     * The relay loop of `forward_file`: read at most min(4096, remaining)
     * bytes at a time from `s` until `filesize` bytes are read or the stream
     * ends, sending each chunk to `receiver` as it comes.
     */
    method RelayPayload(receiver: Conn, s: Stream, filesize: int) returns (rest: Stream)
      requires receiver < |outbox| && receiver !in dead
      modifies this
      ensures Abs() == PutAll(old(Abs()), receiver, DataFrames(Pump(s, filesize).0))
      ensures rest == Pump(s, filesize).1
    {
      ghost var goal := (PutAll(Abs(), receiver, DataFrames(Pump(s, filesize).0)), Pump(s, filesize).1);
      rest := s;
      var remaining := filesize;
      while remaining > 0
        invariant receiver < |outbox|
        invariant var p := Pump(rest, remaining); (PutAll(Abs(), receiver, DataFrames(p.0)), p.1) == goal
        decreases Bytes(rest)
      {
        var (chunk, next) := Recv(rest, Min(ChunkSize, remaining));
        PumpStep(rest, remaining);
        if chunk == [] {
          rest := next;
          break;
        }
        RelayStep(Abs(), receiver, rest, remaining);
        Write(receiver, Data(chunk));
        remaining := remaining - |chunk|;
        rest := next;
      }
      PutAllNone(Abs(), receiver);
    }

    /** `route_message(username, raw, conn)`, with `s` what the connection still delivers. */
    method RouteMessage(name: string, raw: string, s: Stream) returns (outcome: Router.Outcome, rest: Stream)
      requires Router.Session(Abs(), name)
      modifies this
      ensures Router.Routed(Abs(), rest, outcome) == Router.RouteMessage(old(Abs()), name, raw, s)
    {
      var parsed := Commands.ParseCommand(raw);
      outcome, rest := Dispatch(name, raw, parsed, s);
    }

    /** The branches of `route_message` on the classified command. */
    method Dispatch(name: string, raw: string, parsed: Commands.Parsed, s: Stream) returns (outcome: Router.Outcome, rest: Stream)
      requires Router.Session(Abs(), name)
      modifies this
      ensures Router.Routed(Abs(), rest, outcome) == Router.Dispatch(old(Abs()), name, raw, parsed, s)
    {
      rest := s;
      ghost var st := Abs();
      match parsed
      case Raises =>
        outcome := Router.Raised;
      case Parsed(cmd) =>
        match cmd
        case PrivateMessage(target, msg) =>
          var ok := SendPrivate(name, target, msg);
          outcome := if ok then Router.Continue else Router.Raised;
          assert Router.Dispatch(st, name, raw, parsed, s)
              == if ok then Router.Routed(Router.SendPrivate(st, name, target, msg).value, s, Router.Continue)
                 else Router.Routed(st, s, Router.Raised);
        case Broadcast(msg) =>
          Broadcast(msg, Some(name));
          outcome := Router.Continue;
        case List =>
          ListUsers(name);
          outcome := Router.Continue;
        case Quit =>
          outcome := Router.Quit;
        case Invalid(error) =>
          Write(clients[name], Text(Router.ErrorReply(error)));
          outcome := Router.Continue;
        case FileHeader(_, target, _, size) =>
          var ok;
          ok, rest := ForwardFile(name, target, raw, s, size);
          outcome := if ok then Router.Continue else Router.Raised;
          ghost var forwarded := Router.ForwardFile(st, name, target, raw, s, size);
          assert Router.Dispatch(st, name, raw, parsed, s)
              == if ok then Router.Routed(forwarded.0.value, forwarded.1, Router.Continue)
                 else Router.Routed(st, s, Router.Raised);
    }

    /** The receive loop of `handle_client`. */
    method Serve(name: string, s: Stream) returns (rest: Stream, reason: Router.Reason)
      requires Router.Session(Abs(), name)
      modifies this
      ensures (Abs(), rest, reason) == Router.Serve(old(Abs()), name, s)
    {
      rest := s;
      while true
        invariant Router.Session(Abs(), name)
        invariant Router.Serve(Abs(), name, rest) == Router.Serve(old(Abs()), name, s)
        decreases Bytes(rest)
      {
        var (unit, next) := Recv(rest, LineSize);
        if unit == [] {
          rest := next;
          reason := Router.Disconnected;
          return;
        }
        ghost var before := Abs();
        Router.RouteKeeps(before, name, Decode(unit), Commands.ParseCommand(Decode(unit)), next);
        var outcome;
        outcome, rest := RouteMessage(name, Decode(unit), next);
        match outcome
        case Raised =>
          reason := Router.Failed;
          return;
        case Quit =>
          Write(clients[name], Text(Router.Goodbye));
          reason := Router.Quitted;
          return;
        case Continue =>
      }
    }

    /**
     * `handle_client(conn, addr)` on a connection no registered user holds,
     * with `s` what that connection will deliver.
     */
    method HandleClient(conn: Conn, s: Stream) returns (rest: Stream, ending: Router.Ending)
      requires Valid(Abs()) && conn < |outbox|
      requires forall u :: u in clients ==> clients[u] != conn
      modifies this
      ensures (Abs(), rest, ending) == Router.HandleClient(old(Abs()), conn, s)
    {
      var greeted := TrySend(conn, Text(Router.Prompt));
      if !greeted {
        return s, Router.Unreachable;
      }
      var (unit, s1) := Recv(s, LineSize);
      var name := Strip(Decode(unit));
      if name in clients {
        Write(conn, Text(Router.Taken));
        return s1, Router.Rejected(name);
      }
      var reason;
      rest, reason := Attend(name, conn, s1);
      ending := Router.Ended(name, reason);
    }

    /** Register the accepted name on the connection, announce the join and send the welcome. */
    method Admit(name: string, conn: Conn)
      requires Valid(Abs()) && name !in clients && conn < |outbox| && conn !in dead
      requires forall u :: u in clients ==> clients[u] != conn
      modifies this
      ensures Abs() == Router.Admit(old(Abs()), name, conn)
    {
      RegisterValid(Abs(), name, conn);
      Register(name, conn);
      Broadcast(Router.Joined(name), None);
      Write(conn, Text(Router.Welcome));
    }

    /** The rest of `handle_client` once the name is accepted: admit, serve, tear down. */
    method Attend(name: string, conn: Conn, s: Stream) returns (rest: Stream, reason: Router.Reason)
      requires Valid(Abs()) && name !in clients && conn < |outbox| && conn !in dead
      requires forall u :: u in clients ==> clients[u] != conn
      modifies this
      ensures (Abs(), rest, reason) == Router.Attend(old(Abs()), name, conn, s)
    {
      Router.Admitted(Abs(), name, conn);
      Admit(name, conn);
      Router.ServeEnds(Abs(), name, s);
      rest, reason := Serve(name, s);
      RemoveAllValid(Abs(), [name]);
      if name in clients {
        Remove(name);
      }
      Broadcast(Router.LeftChat(name), None);
    }
  }

  /** One turn of the relay loop of `forward_file`, on the outbox of the receiver. */
  lemma RelayStep(st: State, c: Conn, s: Stream, remaining: int)
    requires c < |st.outbox| && remaining > 0
    requires Recv(s, Min(ChunkSize, remaining)).0 != []
    ensures var (chunk, next) := Recv(s, Min(ChunkSize, remaining));
            var p := Pump(next, remaining - |chunk|);
            (PutAll(Put(st, c, Data(chunk)), c, DataFrames(p.0)), p.1)
              == (PutAll(st, c, DataFrames(Pump(s, remaining).0)), Pump(s, remaining).1)
  {
    var (chunk, next) := Recv(s, Min(ChunkSize, remaining));
    var more := Pump(next, remaining - |chunk|).0;
    PumpStep(s, remaining);
    DataFramesCons(chunk, more);
    PutAllCons(st, c, Data(chunk), DataFrames(more));
  }

  /**
   * One turn of the delivery loop of `broadcast`: whether or not the first
   * user is sent the text, what is left to deliver still adds up to the
   * whole delivery.
   */
  lemma DeliverTurn(st: State, todo: seq<string>, sender: Option<string>, text: string,
                    owed: seq<string>, goal: (State, seq<string>))
    requires todo != [] && forall u :: u in todo ==> u in st.clients && st.clients[u] < |st.outbox|
    requires var d := Deliver(st, todo, sender, text); (d.0, owed + d.1) == goal
    ensures var u := todo[0];
            var (next, ok) := if sender == Some(u) then (st, true) else Send(st, st.clients[u], Text(text));
            var d := Deliver(next, todo[1..], sender, text);
            (d.0, (if ok then owed else owed + [u]) + d.1) == goal
  {
    var u := todo[0];
    DeliverUnfold(st, todo, sender, text);
    if sender != Some(u) {
      var (next, ok) := Send(st, st.clients[u], Text(text));
      var tail := Deliver(next, todo[1..], sender, text).1;
      AppendAssoc(owed, [u], tail);
    }
  }
}

=== FILE: streams.dfy ===
/**
 * What travels over one connection. Writes are frames; reads come from a
 * stream of the units the peer sent. `recv(n)` hands back at most `n` bytes
 * of the next unit, and a zero-length read means the peer has closed.
 */
module Streams {
  import opened Strings

  /** The per-read cap of both file relay loops. */
  const ChunkSize := 4096

  /** The size of the `recv` that reads one text unit (a username or a command). */
  const LineSize := 1024

  /** One `sendall` on a connection: text (sent encoded) or raw file bytes. */
  datatype Frame = Text(text: string) | Data(bytes: seq<byte>)

  /**
   * The units a connection will still deliver, in order. An empty unit, or the
   * end of the sequence, is the end of the stream.
   */
  type Stream = seq<seq<byte>>

  function Min(a: int, b: int): int
  {
    if a <= b then a else b
  }

  /** Every byte the stream still holds, also past its end. */
  function Bytes(s: Stream): nat
  {
    if s == [] then 0 else |s[0]| + Bytes(s[1..])
  }

  /** The bytes reads will return before the stream ends. */
  function Available(s: Stream): seq<byte>
  {
    if s == [] || s[0] == [] then [] else s[0] + Available(s[1..])
  }

  /** The byte sequence a list of chunks adds up to. */
  function Concat(chunks: seq<seq<byte>>): seq<byte>
  {
    if chunks == [] then [] else chunks[0] + Concat(chunks[1..])
  }

  lemma {:induction false} ConcatAppend(a: seq<seq<byte>>, b: seq<seq<byte>>)
    ensures Concat(a + b) == Concat(a) + Concat(b)
  {
    if a != [] {
      assert (a + b)[1..] == a[1..] + b;
      ConcatAppend(a[1..], b);
    } else {
      assert a + b == b;
    }
  }

  /** One `sendall` per chunk, in order. */
  function DataFrames(chunks: seq<seq<byte>>): (r: seq<Frame>)
    ensures |r| == |chunks|
    ensures forall k :: 0 <= k < |r| ==> r[k] == Data(chunks[k])
  {
    seq(|chunks|, k requires 0 <= k < |chunks| => Data(chunks[k]))
  }

  /**
   * `recv(n)`: the next at most `n` bytes of the current unit. The read takes
   * a prefix of what is available, is empty exactly at the end of the stream,
   * and leaves an ended stream as it was.
   */
  function Recv(s: Stream, n: nat): (r: (seq<byte>, Stream))
    requires n > 0
    ensures |r.0| <= n
    ensures r.0 + Available(r.1) == Available(s)
    ensures r.0 == [] <==> Available(s) == []
    ensures r.0 == [] ==> r.1 == s
    ensures Bytes(r.1) + |r.0| == Bytes(s)
  {
    if s == [] || s[0] == [] then ([], s)
    else if |s[0]| <= n then (s[0], s[1..])
    else
      var rest := [s[0][n..]] + s[1..];
      assert rest[1..] == s[1..];
      assert s[0] == s[0][..n] + s[0][n..];
      (s[0][..n], rest)
  }

  /**
   * The reads of a relay loop that still owes `remaining` bytes: each read
   * asks for at most min(ChunkSize, remaining) and is not empty, so what is
   * still owed never drops below zero.
   */
  predicate ReadsWithin(chunks: seq<seq<byte>>, remaining: int)
  {
    chunks == []
    || (0 < |chunks[0]| <= Min(ChunkSize, remaining) && ReadsWithin(chunks[1..], remaining - |chunks[0]|))
  }

  /**
   * The chunks that `while remaining > 0: chunk = recv(min(4096, remaining));
   * if not chunk: break; ...; remaining -= len(chunk)` reads, and the stream
   * left after it; what they add up to is stated by `PumpReads`.
   */
  function Pump(s: Stream, remaining: int): (r: (seq<seq<byte>>, Stream))
    ensures Bytes(r.1) <= Bytes(s)
    decreases Bytes(s)
  {
    if remaining <= 0 then ([], s)
    else
      var (chunk, rest) := Recv(s, Min(ChunkSize, remaining));
      if chunk == [] then ([], rest)
      else
        var (more, left) := Pump(rest, remaining - |chunk|);
        ([chunk] + more, left)
  }

  /**
   * Each read of the relay loop is non-empty and within what is still owed,
   * and together the reads are exactly the first min(remaining, available)
   * bytes of the stream, in order, with the rest left in the stream.
   */
  lemma {:induction false} PumpReads(s: Stream, remaining: int)
    ensures var (chunks, rest) := Pump(s, remaining);
            && ReadsWithin(chunks, remaining)
            && Concat(chunks) + Available(rest) == Available(s)
            && |Concat(chunks)| == Min(if remaining < 0 then 0 else remaining, |Available(s)|)
    decreases Bytes(s)
  {
    if remaining > 0 {
      var (chunk, next) := Recv(s, Min(ChunkSize, remaining));
      if chunk != [] {
        PumpReads(next, remaining - |chunk|);
        var (more, left) := Pump(next, remaining - |chunk|);
        assert Pump(s, remaining) == ([chunk] + more, left);
        assert ([chunk] + more)[1..] == more;
        assert Concat([chunk] + more) == chunk + Concat(more);
        AppendAssoc(chunk, Concat(more), Available(left));
      }
    }
  }

  /** The reads of a relay loop are never empty. */
  lemma {:induction false} ReadsNonEmpty(chunks: seq<seq<byte>>, remaining: int)
    requires ReadsWithin(chunks, remaining)
    ensures forall k :: 0 <= k < |chunks| ==> chunks[k] != []
  {
    if chunks != [] {
      ReadsNonEmpty(chunks[1..], remaining - |chunks[0]|);
      assert forall k :: 1 <= k < |chunks| ==> chunks[k] == chunks[1..][k - 1];
    }
  }

  /** Concatenation is associative. */
  lemma AppendAssoc<T>(a: seq<T>, b: seq<T>, c: seq<T>)
    ensures (a + b) + c == a + (b + c)
  {
  }

  /** One turn of the relay loop: a read, then either the end or the rest of the loop. */
  lemma PumpStep(s: Stream, remaining: int)
    requires remaining > 0
    ensures var (chunk, next) := Recv(s, Min(ChunkSize, remaining));
            Pump(s, remaining) == if chunk == [] then ([], next)
                                  else ([chunk] + Pump(next, remaining - |chunk|).0, Pump(next, remaining - |chunk|).1)
  {
  }

  lemma DataFramesCons(chunk: seq<byte>, chunks: seq<seq<byte>>)
    ensures DataFrames([chunk] + chunks) == [Data(chunk)] + DataFrames(chunks)
  {
  }

  /** The relay loop delivers exactly a prefix of the available bytes: the first min(remaining, available). */
  lemma PumpPrefix(s: Stream, remaining: int)
    ensures var n := Min(if remaining < 0 then 0 else remaining, |Available(s)|);
            Concat(Pump(s, remaining).0) == Available(s)[..n]
            && Available(Pump(s, remaining).1) == Available(s)[n..]
  {
    PumpReads(s, remaining);
  }

  /**
   * The chunks of `while True: chunk = f.read(4096); if not chunk: break`
   * over a file holding `d`: none is empty, all but the last are full, and
   * they add up to the file.
   */
  function Chunked(d: seq<byte>): (r: seq<seq<byte>>)
    ensures Concat(r) == d
    ensures forall k :: 0 <= k < |r| ==> 0 < |r[k]| <= ChunkSize
    ensures forall k :: 0 <= k < |r| - 1 ==> |r[k]| == ChunkSize
    decreases |d|
  {
    if d == [] then []
    else
      var n := Min(ChunkSize, |d|);
      var r := [d[..n]] + Chunked(d[n..]);
      assert r[1..] == Chunked(d[n..]);
      assert d == d[..n] + d[n..];
      r
  }
}

=== FILE: strings.dfy ===
/**
 * The few Python string operations the chat protocol is built from:
 * `str.strip()`, `str.split(sep, maxsplit)`, `sep.join(...)`, `int(...)`,
 * `str(n)` for a non-negative integer, and the decoding of received bytes.
 */
module Strings {
  import opened Wrappers

  /** A byte, as sockets and files carry it. */
  type byte = b: int | 0 <= b < 256

  /** Python's `str.isspace()` on one character. */
  predicate IsSpace(c: char)
  {
    || c == ' '
    || ('\t' <= c <= '\r')
    || ('\U{1c}' <= c <= '\U{1f}')
    || c == '\U{85}' || c == '\U{a0}' || c == '\U{1680}'
    || ('\U{2000}' <= c <= '\U{200a}')
    || c == '\U{2028}' || c == '\U{2029}' || c == '\U{202f}' || c == '\U{205f}' || c == '\U{3000}'
  }

  /** `s` without its leading whitespace. */
  function StripLeft(s: string): (r: string)
    ensures |r| <= |s| && r == s[|s| - |r|..]
    ensures forall k :: 0 <= k < |s| - |r| ==> IsSpace(s[k])
    ensures r == [] || !IsSpace(r[0])
  {
    if |s| > 0 && IsSpace(s[0]) then StripLeft(s[1..]) else s
  }

  /** `s` without its trailing whitespace. */
  function StripRight(s: string): (r: string)
    ensures |r| <= |s| && r == s[..|r|]
    ensures forall k :: |r| <= k < |s| ==> IsSpace(s[k])
    ensures r == [] || !IsSpace(r[|r| - 1])
  {
    if |s| > 0 && IsSpace(s[|s| - 1]) then StripRight(s[..|s| - 1]) else s
  }

  /** Python's `s.strip()`: the text between the leading and the trailing whitespace. */
  function Strip(s: string): (r: string)
    ensures |r| <= |s|
    ensures r == [] || (!IsSpace(r[0]) && !IsSpace(r[|r| - 1]))
  {
    StripRight(StripLeft(s))
  }

  /** A text whose two ends are not whitespace is its own strip. */
  lemma StripKeeps(s: string)
    requires s == [] || (!IsSpace(s[0]) && !IsSpace(s[|s| - 1]))
    ensures Strip(s) == s
  {
  }

  /** Stripping never changes a stripped text again. */
  lemma StripIdempotent(s: string)
    ensures Strip(Strip(s)) == Strip(s)
  {
    StripKeeps(Strip(s));
  }

  /** Trailing whitespace added after a stripped, non-empty text is all that strip removes. */
  lemma {:induction false} StripTrailing(s: string, tail: string)
    requires s != [] && !IsSpace(s[0]) && !IsSpace(s[|s| - 1])
    requires forall k :: 0 <= k < |tail| ==> IsSpace(tail[k])
    ensures Strip(s + tail) == s
  {
    assert StripLeft(s + tail) == s + tail;
    if tail != [] {
      assert (s + tail)[..|s + tail| - 1] == s + tail[..|tail| - 1];
      StripTrailing(s, tail[..|tail| - 1]);
    } else {
      assert s + tail == s;
    }
  }

  /** Whitespace on both sides of a stripped, non-empty text is exactly what strip removes. */
  lemma {:induction false} StripAround(head: string, s: string, tail: string)
    requires s != [] && !IsSpace(s[0]) && !IsSpace(s[|s| - 1])
    requires forall k :: 0 <= k < |head| ==> IsSpace(head[k])
    requires forall k :: 0 <= k < |tail| ==> IsSpace(tail[k])
    ensures Strip(head + s + tail) == s
  {
    if head == [] {
      assert head + s + tail == s + tail;
      StripTrailing(s, tail);
    } else {
      assert (head + s + tail)[1..] == head[1..] + s + tail;
      StripAround(head[1..], s, tail);
    }
  }

  /** Python's `s.find(c)`: the index of the first occurrence of `c`, if any (see `IndexOfFirst`). */
  function IndexOf(s: string, c: char): (r: Option<nat>)
    ensures r.Some? ==> r.value < |s|
  {
    if |s| == 0 then None
    else if s[0] == c then Some(0)
    else match IndexOf(s[1..], c)
      case None => None
      case Some(i) => Some(i + 1)
  }

  /** `find` fails exactly when `c` is absent, and otherwise finds its first occurrence. */
  lemma {:induction false} IndexOfFirst(s: string, c: char)
    ensures IndexOf(s, c).None? <==> c !in s
    ensures IndexOf(s, c).Some? ==> s[IndexOf(s, c).value] == c && c !in s[..IndexOf(s, c).value]
  {
    if |s| > 0 && s[0] != c {
      IndexOfFirst(s[1..], c);
      assert s == [s[0]] + s[1..];
      if IndexOf(s[1..], c).Some? {
        var i := IndexOf(s[1..], c).value;
        assert s[..i + 1] == [s[0]] + s[1..][..i];
      }
    }
  }

  /** The separator's first occurrence in `a + [c] + b` is right after `a` when `a` lacks it. */
  lemma {:induction false} IndexOfAfter(a: string, c: char, b: string)
    requires c !in a
    ensures IndexOf(a + [c] + b, c) == Some(|a|)
  {
    var s := a + [c] + b;
    if a == [] {
      assert s[0] == c;
    } else {
      assert a[0] != c && s[0] == a[0];
      assert s[1..] == a[1..] + [c] + b;
      IndexOfAfter(a[1..], c, b);
    }
  }

  /** Python's `sep.join(parts)`. */
  function Join(sep: string, parts: seq<string>): string
  {
    if |parts| == 0 then ""
    else if |parts| == 1 then parts[0]
    else parts[0] + sep + Join(sep, parts[1..])
  }

  /** Joining one more part in front adds it and one separator. */
  lemma JoinCons(sep: string, first: string, rest: seq<string>)
    requires rest != []
    ensures Join(sep, [first] + rest) == first + sep + Join(sep, rest)
  {
    assert ([first] + rest)[1..] == rest;
  }

  /**
   * Python's `s.split(sep, maxsplit)` for a one-character separator: it cuts at
   * the first `maxsplit` occurrences of `sep` and keeps empty fields.
   */
  function Split(s: string, sep: char, maxsplit: nat): (r: seq<string>)
    ensures 1 <= |r| <= maxsplit + 1
    decreases |s|
  {
    if maxsplit == 0 then [s]
    else match IndexOf(s, sep)
      case None => [s]
      case Some(i) => [s[..i]] + Split(s[i + 1..], sep, maxsplit - 1)
  }

  /** The fields `split` returns join back to the text. */
  lemma {:induction false} SplitJoins(s: string, sep: char, maxsplit: nat)
    ensures Join([sep], Split(s, sep, maxsplit)) == s
    decreases |s|
  {
    if maxsplit > 0 && IndexOf(s, sep).Some? {
      var i := IndexOf(s, sep).value;
      var t := s[i + 1..];
      IndexOfFirst(s, sep);
      SplitJoins(t, sep, maxsplit - 1);
      SplitAt(s, sep, maxsplit, i);
      JoinAtCut(s, sep, i, Split(t, sep, maxsplit - 1));
    } else {
      SplitNoCut(s, sep, maxsplit);
    }
  }

  /** Joining the part before a separator with fields that join to the part after it gives the text back. */
  lemma JoinAtCut(s: string, sep: char, i: nat, rest: seq<string>)
    requires i < |s| && s[i] == sep && rest != [] && Join([sep], rest) == s[i + 1..]
    ensures Join([sep], [s[..i]] + rest) == s
  {
    JoinCons([sep], s[..i], rest);
    assert s == s[..i] + [sep] + s[i + 1..];
  }

  /** A cut of `split` at the first separator: the part before it, then the split of the rest. */
  lemma SplitAt(s: string, sep: char, maxsplit: nat, i: nat)
    requires maxsplit > 0 && IndexOf(s, sep) == Some(i)
    ensures Split(s, sep, maxsplit) == [s[..i]] + Split(s[i + 1..], sep, maxsplit - 1)
  {
  }

  /**
   * No field `split` returns holds the separator, except the last when the
   * split ran out of cuts.
   */
  lemma {:induction false} SplitFields(s: string, sep: char, maxsplit: nat, k: nat)
    requires k < |Split(s, sep, maxsplit)|
    requires k < |Split(s, sep, maxsplit)| - 1 || |Split(s, sep, maxsplit)| <= maxsplit
    ensures sep !in Split(s, sep, maxsplit)[k]
    decreases |s|
  {
    if maxsplit > 0 && IndexOf(s, sep).Some? {
      var i := IndexOf(s, sep).value;
      var rest := Split(s[i + 1..], sep, maxsplit - 1);
      SplitAt(s, sep, maxsplit, i);
      if k == 0 {
        IndexOfFirst(s, sep);
        assert Split(s, sep, maxsplit)[0] == s[..i];
      } else {
        SplitFields(s[i + 1..], sep, maxsplit - 1, k - 1);
        assert Split(s, sep, maxsplit)[k] == rest[k - 1];
      }
    } else {
      SplitNoCut(s, sep, maxsplit);
      assert |Split(s, sep, maxsplit)| == 1 && k == 0;
      assert maxsplit > 0 && IndexOf(s, sep).None?;
      IndexOfFirst(s, sep);
    }
  }

  /**
   * The fields `split` returns are the only ones that join back to the text,
   * hold no separator before the last, and hold none in the last unless the
   * split ran out of cuts.
   */
  lemma {:induction false} SplitUnique(s: string, sep: char, maxsplit: nat, fields: seq<string>)
    requires 1 <= |fields| <= maxsplit + 1
    requires Join([sep], fields) == s
    requires forall k :: 0 <= k < |fields| - 1 ==> sep !in fields[k]
    requires |fields| <= maxsplit ==> sep !in fields[|fields| - 1]
    ensures Split(s, sep, maxsplit) == fields
    decreases |fields|
  {
    if |fields| == 1 {
      SplitWhole(s, sep, maxsplit);
    } else {
      var a, b := fields[0], Join([sep], fields[1..]);
      JoinCons([sep], a, fields[1..]);
      assert [a] + fields[1..] == fields;
      assert s == a + [sep] + b;
      SplitUnique(b, sep, maxsplit - 1, fields[1..]);
      assert Split(b, sep, maxsplit - 1) == fields[1..];
      SplitCut(a, sep, b, maxsplit);
      assert Split(a + [sep] + b, sep, maxsplit) == [a] + Split(b, sep, maxsplit - 1);
      assert Split(s, sep, maxsplit) == [a] + fields[1..];
      assert [a] + fields[1..] == fields;
    }
  }

  /** With no cut left, or no separator, the text is the one field. */
  lemma SplitWhole(s: string, sep: char, maxsplit: nat)
    requires maxsplit == 0 || sep !in s
    ensures Split(s, sep, maxsplit) == [s]
  {
    IndexOfFirst(s, sep);
  }

  lemma SplitNoCut(s: string, sep: char, maxsplit: nat)
    requires maxsplit == 0 || IndexOf(s, sep).None?
    ensures Split(s, sep, maxsplit) == [s]
  {
  }

  /** A text cut at its first separator splits into the part before it and the split of the rest. */
  lemma SplitCut(a: string, sep: char, b: string, maxsplit: nat)
    requires sep !in a && maxsplit > 0
    ensures Split(a + [sep] + b, sep, maxsplit) == [a] + Split(b, sep, maxsplit - 1)
  {
    var s := a + [sep] + b;
    IndexOfAfter(a, sep, b);
    assert s[..|a|] == a && s[|a| + 1..] == b;
  }

  /** How many times `c` occurs in `s`: Python's `s.count(c)`. */
  function Count(s: string, c: char): (r: nat)
    ensures r <= |s|
  {
    if s == [] then 0 else (if s[0] == c then 1 else 0) + Count(s[1..], c)
  }

  /** The text after the first occurrence of `c` holds one `c` fewer. */
  lemma {:induction false} CountAfterFirst(s: string, c: char, i: nat)
    requires IndexOf(s, c) == Some(i)
    ensures Count(s, c) == 1 + Count(s[i + 1..], c)
  {
    if s[0] != c {
      assert s[1..][i..] == s[i + 1..];
      CountAfterFirst(s[1..], c, i - 1);
    }
  }

  /** Every cut consumes one separator: `split` returns at most one field more than there are separators. */
  lemma {:induction false} SplitCount(s: string, sep: char, maxsplit: nat)
    ensures |Split(s, sep, maxsplit)| <= Count(s, sep) + 1
    decreases |s|
  {
    if maxsplit > 0 && IndexOf(s, sep).Some? {
      var i := IndexOf(s, sep).value;
      var t := s[i + 1..];
      CountAfterFirst(s, sep, i);
      SplitAt(s, sep, maxsplit, i);
      SplitCount(t, sep, maxsplit - 1);
      assert |Split(s, sep, maxsplit)| == 1 + |Split(t, sep, maxsplit - 1)|;
      assert Count(s, sep) == 1 + Count(t, sep);
    } else {
      SplitNoCut(s, sep, maxsplit);
    }
  }

  predicate IsDigit(c: char)
  {
    '0' as int <= c as int <= '9' as int
  }

  /** A non-empty run of ASCII decimal digits. */
  predicate IsDecimal(d: string)
  {
    |d| > 0 && forall k :: 0 <= k < |d| ==> IsDigit(d[k])
  }

  /** The value of a run of decimal digits, most significant first. */
  function DecimalValue(d: string): nat
    requires forall k :: 0 <= k < |d| ==> IsDigit(d[k])
  {
    if |d| == 0 then 0
    else
      assert IsDigit(d[|d| - 1]);
      DecimalValue(d[..|d| - 1]) * 10 + (d[|d| - 1] as int - '0' as int)
  }

  /**
   * Python's `int(text)` on decimal text: optional surrounding whitespace, an
   * optional sign, then at least one digit. `None` stands for the ValueError.
   */
  function ParseInt(text: string): Option<int>
  {
    var t := Strip(text);
    if |t| > 0 && (t[0] == '+' || t[0] == '-') then
      if IsDecimal(t[1..]) then
        var v: int := DecimalValue(t[1..]);
        Some(if t[0] == '-' then -v else v)
      else None
    else if IsDecimal(t) then Some(DecimalValue(t))
    else None
  }

  function DigitChar(d: nat): char
    requires d < 10
  {
    ('0' as int + d) as char
  }

  /** Python's `str(n)` (and the `{n}` of an f-string) for a non-negative integer. */
  function NatToString(n: nat): (r: string)
    ensures IsDecimal(r) && DecimalValue(r) == n
  {
    if n < 10 then [DigitChar(n)]
    else
      var r := NatToString(n / 10) + [DigitChar(n % 10)];
      assert r[..|r| - 1] == NatToString(n / 10);
      r
  }

  /** `int(str(n)) == n`, with or without trailing whitespace after the digits. */
  lemma ParseIntOfNat(n: nat, tail: string)
    requires forall k :: 0 <= k < |tail| ==> IsSpace(tail[k])
    ensures ParseInt(NatToString(n) + tail) == Some(n)
  {
    var d := NatToString(n);
    StripTrailing(d, tail);
  }

  /** `int(str(n)) == n` also with leading whitespace before the digits. */
  lemma ParseIntPadded(n: nat, head: string)
    requires forall k :: 0 <= k < |head| ==> IsSpace(head[k])
    ensures ParseInt(head + NatToString(n)) == Some(n)
  {
    var d := NatToString(n);
    assert IsDigit(d[0]) && IsDigit(d[|d| - 1]);
    StripAround(head, d, "");
    assert head + d + "" == head + d;
  }

  /** `int()` rejects a text with a space between its first and last non-blank characters. */
  lemma ParseIntInnerSpace(text: string, j: nat)
    requires j < |Strip(text)| && Strip(text)[j] == ' '
    ensures ParseInt(text) == None
  {
    var t := Strip(text);
    assert !IsDigit(t[j]);
    if j > 0 {
      assert t[1..][j - 1] == ' ';
    }
  }

  /** Received bytes as text: each byte is the character with that code (UTF-8 is not modelled). */
  function Decode(b: seq<byte>): (r: string)
    ensures |r| == |b|
    ensures forall k :: 0 <= k < |b| ==> r[k] as int == b[k]
  {
    seq(|b|, k requires 0 <= k < |b| => b[k] as char)
  }
}

=== FILE: wrappers.dfy ===
/** The optional value used wherever the Python code returns None or raises. */
module Wrappers {

  datatype Option<+T> = None | Some(value: T)
}
